=== FILE: README.md ===
# Testatron back end: scoring, editing and access checks in Dafny

Testatron is a quiz service. Authors write tests made of questions with
options and publish each test under an eight-character code. Respondents
join a test by its code and save answers. When they send the session in,
the server scores every answer that refers to a question of the test, writes
a status on it and records a result.

This project models, as pure Dafny functions over immutable values:

- the respondent handlers `joinTest`, `answerQuestion`, `sendResponseTest`
  and `getTestResult`:
  - the per-answer scoring rules for SINGLE, MULTIPLE and TEXT questions;
  - the fold of a session's answers into counters, a total and a result row;
- the author handlers `publishTest` and `updateQuestion`, including the
  bounded retry loop `generateUniqueCode`;
- the `testMiddleware(checkAuthor)` decision ladder that guards every
  handler taking a test id.

The store is a value of type `Store.Db`:

- It holds one sequence of rows per table, in table order.
- An answer's selected options are kept in the order they were connected.
- A single counter supplies each new row's id.
- A lookup returns the first matching row in table order. For a unique key
  that is the only one; for `findFirst` without an order it is the model's
  choice (see "## Left out").

A handler maps the store and a request to either a new store or an `Error`
(400, 401, 403, 404, or 500 with a message).

Modules:

- `Wrappers`: `Option` and `Result`.
- `JsText`: JavaScript's `String.prototype.trim`.
- `JsNumber`: `Number(...)` of a parameter, and which numbers are falsy.
- `Scoring`: one answer's points and status.
- `Aggregation`: the loop over a session's answers.
- `Store`: the tables and lookups.
- `Passing`: the respondent handlers.
- `CodeGen`: the code generator.
- `Editing`: the author handlers.
- `Access`: the middleware.
- `SeedExamples`: worked examples on the repository's seeded arithmetic test.

Behaviour of the code that the model keeps, including where it departs
from what a reader of the handlers might expect:

- **No answer is SKIPPED.** The code never writes SKIPPED on an answer. An
  answer with no selected options earns 0 and is INCORRECT, unless the
  question is worth 0 (`Scoring.EmptyAnswerStatus`).
- **Saving an answer is a union.** Saving to an existing answer *connects*
  the options, so nothing is replaced (`Passing.AnswerQuestion`).
- **Nothing in the handler stops a second send.** It does not look at the
  session's status. The model, which has no database schema, lets the send
  go through and create a second result
  (`Passing.SendTwiceMakesTwoResults`); see "## Left out" for the case where
  the schema forbids a second result.
- **MULTIPLE scoring depends on order.** The running score is clamped at 0
  after every selected option (`Scoring.MultipleOrderSensitive`).
- **SINGLE looks at every selected option.** A SINGLE answer earns the full
  score if *any* selected option is correct, not only when a single one is
  selected.
- **The four counts need not add up to the question count.** The three
  counters add up to the answer rows that refer to a question of the test,
  and the skipped count is the question count minus *all* answer rows, or 0
  when there are more rows than questions (`Aggregation.Summarize`).
  - With no more rows than questions, the sum falls short of the question
    count by the number of rows that refer to no question of the test
    (`Aggregation.CountsShortByUnmatched`); it equals the question count
    when every row refers to one (`Aggregation.CountsCoverQuestions`).
  - With more rows than questions, the sum is the number of rows that refer
    to a question of the test, which exceeds the question count when all of
    them do (`Aggregation.CountsExceedQuestions`).

## Model

| member | source | states |
|---|---|---|
| JsText.TrimStart | src/controllers/passing-test.ts:238 | the result is a suffix of the input, everything dropped is JavaScript white space or a line terminator, and the result does not start with one |
| JsText.TrimEnd | src/controllers/passing-test.ts:238 | the result is a prefix of the input, everything dropped is trimmable, and the result does not end with a trimmable character |
| JsText.Trim | src/controllers/passing-test.ts:238 | `trim` gives the infix left after dropping the leading and the trailing trimmable characters; the infix neither starts nor ends with one |
| JsText.TrimmedIsFixed | src/controllers/passing-test.ts:238 | a string with no trimmable character at either end is unchanged by `trim` |
| JsText.TrimIdempotent | src/controllers/passing-test.ts:238 | trimming twice is trimming once |
| JsText.TrimKeepsCase | src/controllers/passing-test.ts:236-243 | `trim` removes surrounding blanks but does not fold case: "  Paris " trims to "Paris", "  paris " does not |
| Scoring.CorrectOptions | src/controllers/passing-test.ts:214-216 | the options flagged correct: exactly the options with `isCorrect`, never more than there are options; how often each occurs is stated by `Scoring.CorrectOptionsCount` |
| Scoring.CorrectOptionsCount | src/controllers/passing-test.ts:214-216 | each correct option occurs in the filtered list exactly as often as in the options, and no other option occurs, so `correctOptions.length` counts the correct entries |
| Scoring.ScoreFrom | src/controllers/passing-test.ts:213-244 | from a running score: SINGLE ends at the full score iff some selected option is correct and otherwise keeps the start; TEXT likewise iff some trimmed text equals an option's text; MULTIPLE never goes below 0 from a non-negative start |
| Scoring.Score | src/controllers/passing-test.ts:211-244 | one answer's points: SINGLE and TEXT as above from 0, MULTIPLE at least 0, and an answer with no selected options earns 0 |
| Scoring.Classify | src/controllers/passing-test.ts:246-263 | CORRECT iff the points equal the question's score, ALMOST_CORRECT iff they differ and are positive, INCORRECT iff they differ and are at most 0; never SKIPPED |
| Scoring.AllOrNothing | src/controllers/passing-test.ts:230-243 | SINGLE and TEXT answers earn either 0 or the full score, so their status is CORRECT or INCORRECT |
| Scoring.EmptyAnswerStatus | src/controllers/passing-test.ts:211-213 | an answer with no selected options is INCORRECT, or CORRECT when the question is worth 0 |
| Scoring.TextIgnoresCorrectness | src/controllers/passing-test.ts:236-243 | two TEXT questions with the same option texts and score score every answer alike, whatever their `isCorrect` flags |
| Scoring.MultipleFromBounds | src/controllers/passing-test.ts:221-228 | the clamped MULTIPLE score stays between 0 and the start plus one step per correct selection |
| Scoring.DistinctCorrectSelections | src/controllers/passing-test.ts:214-220 | with no option selected twice, the correct selections are as many as their ids, and those ids are ids of correct options |
| Scoring.IdsAtMostOptions | src/controllers/passing-test.ts:214-216 | a list of options has no more distinct ids than entries |
| Scoring.MultipleBounds | src/controllers/passing-test.ts:221-228 | with at least one correct option, a non-negative score and distinct selections, a MULTIPLE answer earns between 0 and the question's score |
| Scoring.UnitTimesCount | src/controllers/passing-test.ts:223 | at most k steps of score/k never exceed the score |
| Scoring.AllCorrectFrom | src/controllers/passing-test.ts:221-228 | selecting only correct options adds exactly one step of score/k per selection |
| Scoring.StepsMakeScore | src/controllers/passing-test.ts:223 | k steps of score/k add up to the score |
| Scoring.MultipleFullMarks | src/controllers/passing-test.ts:221-228 | selecting as many correct options as the question has earns the full score and CORRECT |
| Scoring.MultipleOrderSensitive | src/controllers/passing-test.ts:221-228 | [wrong, right] earns score/k while [right, wrong] earns 0 |
| Scoring.WrongFirstIsFree | src/controllers/passing-test.ts:225-227 | a wrong option selected first costs nothing, because the clamp absorbs it |
| Aggregation.FindQuestion | src/controllers/passing-test.ts:205-207 | `find` gives the first question with the id, or nothing iff no question has it |
| Aggregation.MatchesIffFound | src/controllers/passing-test.ts:205-208 | `find` finds a question for an answer iff some question of the test has the answer's question id |
| Aggregation.MatchedAnswers | src/controllers/passing-test.ts:204-209 | the answers the loop scores are exactly those whose question is in the test; how often each is scored is stated by `Aggregation.MatchedAnswersCount` |
| Aggregation.MatchedAnswersCount | src/controllers/passing-test.ts:204-209 | an answer whose question is in the test is scored exactly as often as it occurs among the session's answers, and no other answer is scored, so the number of updates is the number of matched answers |
| Aggregation.Aggregate | src/controllers/passing-test.ts:204-264 | one update per matched answer, in order, carrying that answer's score and status; each counter equals the number of updates with its status; no update is SKIPPED; the three counters sum to the matched answers; the total is the sum of their points |
| Aggregation.TickFollowsStatus | src/controllers/passing-test.ts:246-263 | the counter the loop increments is always the counter of the status written on the answer, so the counters keep counting the statuses |
| Aggregation.CountSkipped | src/controllers/passing-test.ts:266-268 | the skipped count fills the answer count up to the question count, and is 0 when there are more answers than questions |
| Aggregation.Summarize | src/controllers/passing-test.ts:197-268 | the three counters sum to the matched answers, the skipped count follows the rule above, and the total is the sum of the matched answers' points |
| Aggregation.CountsShortByUnmatched | src/controllers/passing-test.ts:197-268 | with no more answer rows than questions, the four counts plus the number of rows whose question is not in the test equal the number of questions |
| Aggregation.CountsCoverQuestions | src/controllers/passing-test.ts:246-268 | when every answer matches and there are no more answers than questions, the four counts add up to the number of questions |
| Aggregation.CountsExceedQuestions | src/controllers/passing-test.ts:266-268 | with more matched answers than questions, the four counts add up to the number of answers, not of questions |
| Aggregation.AllMatchedKeepsAll | src/controllers/passing-test.ts:204-209 | when every answer matches a question, none is passed over |
| Aggregation.UnmatchedIgnored | src/controllers/passing-test.ts:205-209 | answers to questions outside the test change no counter, no total and no update |
| Aggregation.MatchedIsFixed | src/controllers/passing-test.ts:205-209 | keeping the matched answers twice is keeping them once |
| Aggregation.StatusFollowsScore | src/controllers/passing-test.ts:246-263 | each update's status is determined by its points and its question's score alone, and is never SKIPPED |
| Aggregation.AnswerBounds | src/controllers/passing-test.ts:213-244 | any answer to a question with a non-negative score earns between 0 and that score |
| Aggregation.TotalBounds | src/controllers/passing-test.ts:250 | the total lies between 0 and the sum of the matched questions' scores |
| SeedExamples.TwoPlusTwoScores | prisma/constants.ts:13-24 | on the seeded "2 + 2" question: "4" earns 1 and CORRECT, "3" earns 0 and INCORRECT, and an empty answer is INCORRECT |
| SeedExamples.ThreeTimesFourScores | prisma/constants.ts:25-37 | on the seeded "3 × 4" question worth 2: all three correct options give 2; two give 4/3 (ALMOST_CORRECT); ["12", "7"] gives 0; ["7", "12"] gives 2/3 |
| SeedExamples.CapitalScores | src/controllers/passing-test.ts:236-243 | a TEXT answer "  Paris " earns the full score against "Paris", and "  paris " earns nothing |
| Store.IndexWhere | src/controllers/passing-test.ts:164-166 | a lookup by key gives the first row that matches, or nothing iff no row matches |
| Store.OptionsOf | src/controllers/passing-test.ts:184-192 | the options of a question are exactly its option rows: every option row of the question is among them and nothing else is; a question with a correct option row has a correct option |
| Store.OptionsOfCount | src/controllers/passing-test.ts:184-192 | a question has as many options as option rows carrying its id |
| Store.CorrectOptionIffRow | src/controllers/passing-test.ts:184-192 | a question has a correct option iff one of its option rows is flagged correct |
| Store.QuestionsOf | src/controllers/passing-test.ts:184-192 | the questions of a test are exactly its question rows with their options, and nothing else; when every MULTIPLE question row of the test has a correct option row, every question of the test can be scored |
| Store.QuestionsOfCount | src/controllers/passing-test.ts:184-192 | a test has as many questions as there are question rows carrying its id |
| Store.ScorableIffCorrectRows | src/controllers/passing-test.ts:214-223 | the questions of a test can all be scored iff every MULTIPLE question row of the test has a correct option row |
| Store.ResolveSelected | src/controllers/passing-test.ts:179-183 | the selected options of an answer: each is the first option row of a listed id, every listed id that has an option row contributes it, ids with no row are dropped, and there are no more than the ids |
| Store.ResolveSelectedAppend | src/controllers/passing-test.ts:179-183 | resolving keeps the listed order: the options of a concatenation of id lists are the options of the parts, one after the other |
| Store.AnswersOf | src/controllers/passing-test.ts:178-183 | the answers of a session are exactly its answer rows with their selected options resolved, and nothing else |
| Store.AnswersOfCount | src/controllers/passing-test.ts:178-183 | a session has as many answers as answer rows carrying its id |
| Passing.JoinTest | src/controllers/passing-test.ts:9-47 | 400 for an invalid body or an empty code; 404 iff no test carries the code; otherwise one new IN_PROGRESS session for a test with that code, with a fresh id, the uuid, the user and the body's guest name |
| Passing.Connect | src/controllers/passing-test.ts:130-139 | the ids after connecting are exactly the old ones and the new ones; the old ones stay first and in place; no id appears twice |
| Passing.ConnectAbsorbs | src/controllers/passing-test.ts:130-139 | connecting ids that are already connected changes nothing |
| Passing.ConnectIdempotent | src/controllers/passing-test.ts:130-139 | connecting the same ids twice is connecting them once |
| Passing.AnswerQuestion | src/controllers/passing-test.ts:103-152 | 400 for an invalid body; 404 for a missing session, then for a missing question; success iff both exist and every option does; with both present and an option id that does not exist, 500 "Internal server error"; an existing answer id gets the union of old and new options with nothing else changed; otherwise one new answer for that question and session |
| Passing.AnswerAgainIsIdempotent | src/controllers/passing-test.ts:130-139 | re-sending the same options to the same answer leaves the store as it is |
| Passing.AnswerWithoutIdTwiceMakesTwoRows | src/controllers/passing-test.ts:130-146 | two saves without an answer id create two answer rows for the same question and session |
| Passing.ApplyGrades | src/controllers/passing-test.ts:252-263 | only answer rows named by an update change, and only in score and status; each such row gets the score and status of an update that names it |
| Passing.Finalize | src/controllers/passing-test.ts:172-301 | the session becomes FINISHED at the given time; exactly one result is appended, with a fresh id, the session's id and user, and the counts and total of the fold; the answer table is the fold's updates written one after the other, so rows change only in score and status and never become SKIPPED |
| Passing.FinalizeGradesSessionAnswers | src/controllers/passing-test.ts:204-263 | with unique answer ids, every answer row of the session whose question is in the test gets that answer's score and status, and every other answer row is left as it was |
| Passing.GradesLandOnOwnRows | src/controllers/passing-test.ts:252-263 | writing the updates onto the answer table changes exactly the session's matched rows, each to its own grade |
| Passing.UpdateNamesItsRow | src/controllers/passing-test.ts:252-263 | an update naming an answer row's id is that row's grade, and the row belongs to the session and to a question of the test |
| Passing.SendResponseTest | src/controllers/passing-test.ts:154-309 | 404 for an empty uuid; 500 "Session not found" when no session has it; otherwise success with the finished session and its result as above; only the questions of the session's own test need a correct option wherever they are MULTIPLE |
| Passing.SessionScorableIffRows | src/controllers/passing-test.ts:214-223 | the requirement on a send holds iff every MULTIPLE question row of the session's test has a correct option row |
| Passing.SendTwiceMakesTwoResults | src/controllers/passing-test.ts:163-177 | with no unique key on a result's session, sending a session in twice succeeds both times and leaves two new results for the same session |
| Passing.ResultCountsCoverQuestions | src/controllers/passing-test.ts:246-268 | when every answer row of the session refers to a question row of its test and there are no more answer rows than question rows, the result's four counts add up to the number of question rows of the test |
| Passing.JoinKeepsKeys | src/controllers/passing-test.ts:35-41 | joining keeps every id positive, unique within its table and below the counter |
| Passing.AnswerKeepsKeys | src/controllers/passing-test.ts:130-146 | saving an answer keeps every id positive, unique within its table and below the counter |
| Passing.SendKeepsKeys | src/controllers/passing-test.ts:172-290 | sending a session in keeps every id positive, unique within its table and below the counter |
| Passing.StampedRowKeepsKeys | src/controllers/passing-test.ts:270-280 | rows that keep their ids plus one result under the counter keep every id positive, unique and below the counter |
| Passing.SendKeepsSessionKeys | src/controllers/passing-test.ts:172-280 | a send keeps every session's id and uuid, appends exactly one result naming the session, and advances the counter by one |
| Passing.GetTestResult | src/controllers/passing-test.ts:311-353 | 404 for an empty uuid; otherwise the first result in table order whose session has the uuid, and 404 iff there is none |
| Passing.SameSessionKeys | src/controllers/passing-test.ts:320-321 | whether a result belongs to the session with a uuid depends only on the sessions' ids and uuids |
| Passing.AppendedResultIsRead | src/controllers/passing-test.ts:320-321 | after rows none of which belong to the session, the first appended result of the session is the one read back |
| Passing.SendThenGetResult | src/controllers/passing-test.ts:311-353 | with unique session ids and no earlier result, the result of a send is read back; after a second send, the first result in table order, which is the first send's, is still the one read back |
| CodeGen.FirstFree | src/controllers/editing-test.ts:19-24 | the first of the first n candidates that no test carries, with every earlier one in use; nothing iff all n are in use |
| CodeGen.PickCode | src/controllers/editing-test.ts:13-31 | a code no test carries, taken from the first ten candidates; nothing iff all ten are in use; well-formed when the candidates are |
| CodeGen.GenerateUniqueCode | src/controllers/editing-test.ts:13-31 | the loop gives the reference result with one to ten draws; ten draws on failure; on success, the last draw is the code and every earlier draw was in use |
| Editing.PublishTest | src/controllers/editing-test.ts:120-153 | 404 for a falsy id before the body is read; 400 for an invalid body; success iff a free code is drawn and the test exists, else 500; the test becomes PUBLISHED with that code, and the expiry date and both display flags are the body's where given and kept otherwise; no other row changes |
| Editing.PublishKeepsCodesUnique | src/controllers/editing-test.ts:136-147 | publishing keeps the tests' codes pairwise distinct |
| Editing.RepublishChangesCode | src/controllers/editing-test.ts:136-147 | publishing an already published test replaces its code with a different one |
| Editing.PublishThenJoin | src/controllers/editing-test.ts:136-147 | after publishing, joining with the new code succeeds and the session belongs to the published test |
| Editing.PublishKeepsKeys | src/controllers/editing-test.ts:136-147 | publishing keeps every id positive, unique within its table and below the counter |
| Editing.OptionIdsOf | src/controllers/editing-test.ts:238 | the ids listed are exactly the ids of the question's options |
| Editing.IncomingIds | src/controllers/editing-test.ts:239-240 | the ids listed are exactly the ids the body gives |
| Editing.OptionsToDelete | src/controllers/editing-test.ts:241-243 | an id is to be deleted iff it is an existing id and not an incoming one |
| Editing.LastTargeting | src/controllers/editing-test.ts:248-249 | the entry found is the last entry of the body that upserts against the id, and nothing is found iff no entry does |
| Editing.UpsertOption | src/controllers/editing-test.ts:248-259 | an entry whose id finds an option overwrites only that option's text and correctness; otherwise a new option of the question is appended with a fresh id |
| Editing.UpsertAll | src/controllers/editing-test.ts:245-261 | existing options keep id and question and change only when an entry targets them; new options belong to the question and take consecutive fresh ids |
| Editing.UpsertAllLastWins | src/controllers/editing-test.ts:246-261 | an option named several times ends with the text and correctness of the last entry naming it |
| Editing.DeleteIds | src/controllers/editing-test.ts:263-265 | an option is kept iff its id is not among those to delete |
| Editing.EditedQuestion | src/controllers/editing-test.ts:225-232 | the question keeps its id and test; each field the body gives is overwritten and each absent one kept |
| Editing.UpdateQuestion | src/controllers/editing-test.ts:207-273 | 404 for a falsy question id or test id, before the body is read; 400 for an invalid body; success iff the question exists, else 500; the question's fields are rewritten; without `options` the option table is untouched; with `options` the options are replaced as `Editing.ReplaceOptions` does |
| Editing.ReplaceOptions | src/controllers/editing-test.ts:238-266 | only the option table and the id counter change, and the counter never goes back; what happens to the options themselves is stated by `Editing.ReplaceKeepsListed` and the lemmas after it |
| Editing.ReplaceKeepsListed | src/controllers/editing-test.ts:245-265 | an option of the question that the body names survives the update, with its id and question and the text and correctness of the last entry naming it |
| Editing.ReplaceKeepsOnlyListed | src/controllers/editing-test.ts:238-266 | afterwards every option of the question is one the body named or a new one |
| Editing.ReplaceDropsUnlisted | src/controllers/editing-test.ts:241-265 | an option of the question that the body does not name is gone, along with every row carrying its id |
| Editing.ReplaceKeepsOthers | src/controllers/editing-test.ts:241-265 | an option of another question that the body does not name survives unchanged |
| Editing.ReplaceNewOptionsBelong | src/controllers/editing-test.ts:254-258 | every created option belongs to the question, and all ids stay positive and below the counter |
| Editing.DeleteIdsKeepsDistinct | src/controllers/editing-test.ts:263-265 | deleting options keeps the remaining ids distinct |
| Editing.UpsertAllKeepsDistinct | src/controllers/editing-test.ts:245-261 | upserting keeps option ids distinct, since existing rows keep theirs and new rows take fresh ones |
| Editing.UpdateKeepsKeys | src/controllers/editing-test.ts:218-266 | editing a question keeps every id positive, unique within its table and below the counter |
| Editing.UpdateIgnoresTestId | src/controllers/editing-test.ts:210-216 | any two truthy test ids give the same outcome |
| Access.LookupAuthor | src/middleware/test.middleware.ts:29-41 | the lookup finds an author iff the test exists, and then it is that test's author; a store that answers never fails |
| Access.TestMiddleware | src/middleware/test.middleware.ts:5-60 | 401 without a user; then 400 for a NaN test id; then, with the author check, 401 for a NaN user id; then 500 on a lookup failure, 404 for a missing test, and 403 under the author check when the author is someone else; `next` iff none of these applies |
| Access.AuthorCheckAdmitsOnlyAuthor | src/middleware/test.middleware.ts:24-47 | with the author check, a request goes through iff the test exists and the signed-in user's numeric id is its author's |
| Access.PlainCheckAdmitsAnyUser | src/middleware/test.middleware.ts:10-41 | without the author check, any signed-in user gets through to an existing test |
| Access.ZeroTestIdIsLookedUp | src/middleware/test.middleware.ts:18-41 | a test id of 0 is not NaN, so it is looked up and gets 404 when no test has that id |

## Left out

- The HTTP layer:
  - Express and Prisma plumbing are not modelled.
  - The JSON bodies of replies and the nested `include` graphs are not modelled.
  - A reply is modelled as its status, plus a message where the message differs between outcomes.
- Validation of request bodies: the zod schemas (`src/validation/test.schemas.ts`) are not part of this model.
  - A body is either the validated input or absent, and an absent body means 400.
  - A field the body omits leaves the stored value as it was.
- Transactions and isolation are not modelled:
  - The session lookup in `sendResponseTest` runs outside the transaction.
  - Each handler is one atomic step.
- Concurrency:
  - The option upserts in `updateQuestion` run in an unawaited `Promise.all` on the client outside the transaction. The model applies them in body order, before the delete.
  - The ids deleted are never upsert targets, and created ids are fresh, so the deleted set does not depend on this order.
- Floating point:
  - Scores are `real`, so the IEEE-754 rounding of `score / k` and of the running sums is not modelled.
  - In the source, the `===` comparison with the question's score can therefore differ where rounding intervenes.
  - A MULTIPLE question with no correct option divides by zero in the source, where `score / 0` is an infinity or NaN. The model requires every MULTIPLE question of the session's own test to have a correct option (`Passing.SessionScorable`); questions of other tests play no part, as in the source.
- Randomness:
  - `nanoid` and its draws are the `candidates` parameter.
  - The clock is the `now` parameter.
  - The new session's uuid is a parameter of `Passing.JoinTest`.
- Store failures:
  - Failures other than the ones a handler checks for are not modelled, such as a connection error.
  - The middleware takes the lookup's outcome as a parameter that may be `Failed`.
  - `answerQuestion` does fail with 500 when an option id does not exist, as connecting it throws.
  - The message of the 500 reply `sendResponseTest` sends for any other thrown error is not modelled.
- Numbers: `Number(...)` of a path parameter is an integer or NaN. Fractions and infinities are not represented.
- Authentication, the other controllers, the route files and the seed script are outside this model; the seeded questions appear only as examples.
- The order of an answer's selected options: the source loads them through the many-to-many relation without an `orderBy`, so their order is whatever the store returns. The model fixes it as connection order. MULTIPLE scores depend on that order (`Scoring.MultipleOrderSensitive`), so the score, status and total written when a session is sent in rest on this choice.
- Uniqueness of a session's result: the database schema is not part of this model, and the model lets a session have several results. If the schema makes a result's session unique, as the singular `testResult` relation read in `src/controllers/teacher.controller.ts` suggests, the second `testResult.create` of a repeated send throws, the transaction rolls back, and the reply is 500. `Passing.SendTwiceMakesTwoResults` and `Passing.SendThenGetResult` hold only without that constraint.
- Passing.GetTestResult: `findFirst` in `getTestResult` has no `orderBy`, so the store does not promise which of several results of a session it returns. The model returns the first in table order, and `Passing.SendThenGetResult`'s "the first send's result" rests on that choice.
- Scoring.Score: for MULTIPLE it states only that the points are non-negative. The upper bound needs distinct selections and is proved separately (`Scoring.MultipleBounds`), because the bound does not hold when a selection lists the same option twice.
- Editing.UpsertAll: it does not state the final text of an option for every entry. That holds for the first row with a given id (`Editing.UpsertAllLastWins`), because an upsert touches only the first row carrying the id.

=== FILE: access.dfy ===
/** `testMiddleware(checkAuthor)`: the checks run before any handler that
    takes a test id. They run in a fixed order, and the first that fails
    decides the reply. */
module Access {
  import opened Wrappers
  import opened Store
  import opened JsNumber

  /** What the lookup of the test's author gave: the author, no such test,
      or a failure (a known store error, or any other). */
  datatype Lookup = Found(authorId: int) | Missing | Failed(knownStoreError: bool)

  /** The middleware either passes the request on or replies itself. */
  datatype Outcome = Next | Reply(status: int, message: string)

  /** The lookup against the store; a store that answers never fails. */
  function LookupAuthor(db: Db, testId: int): (r: Lookup)
    ensures r.Found? <==> TestById(db, testId).Some?
    ensures r.Found? ==> r.authorId == db.tests[TestById(db, testId).value].authorId
    ensures !r.Failed?
  {
    match TestById(db, testId)
    case None => Missing
    case Some(k) => Found(db.tests[k].authorId)
  }

  /** The decision ladder. `user` is the id of the signed-in user, if any;
      `testId` is the path parameter as a number; `lookup` gives the outcome
      of looking up a test, which is only done once the earlier checks pass. */
  function TestMiddleware(checkAuthor: bool, user: Option<Number>, testId: Number, lookup: int -> Lookup)
    : (r: Outcome)
    ensures user.None? ==> r == Reply(401, "Unauthorized")
    ensures user.Some? && testId.NaN? ==> r == Reply(400, "Invalid test ID")
    ensures user.Some? && !testId.NaN? && checkAuthor && user.value.NaN? ==> r == Reply(401, "Unauthorized")
    ensures user.Some? && !testId.NaN? && (!checkAuthor || !user.value.NaN?) ==>
      && (lookup(testId.value).Missing? ==> r == Reply(404, "Test not found"))
      && (lookup(testId.value).Failed? ==>
            r == Reply(500, if lookup(testId.value).knownStoreError then "Something went wrong" else "Internal server error"))
      && (lookup(testId.value).Found? && checkAuthor && lookup(testId.value).authorId != user.value.value ==>
            r == Reply(403, "Forbidden"))
    ensures r == Next <==>
      && user.Some? && !testId.NaN?
      && lookup(testId.value).Found?
      && (checkAuthor ==> !user.value.NaN? && lookup(testId.value).authorId == user.value.value)
  {
    if user.None? then Reply(401, "Unauthorized")
    else if testId.NaN? then Reply(400, "Invalid test ID")
    else if checkAuthor && user.value.NaN? then Reply(401, "Unauthorized")
    else match lookup(testId.value)
      case Failed(known) => Reply(500, if known then "Something went wrong" else "Internal server error")
      case Missing => Reply(404, "Test not found")
      case Found(authorId) =>
        if checkAuthor && authorId != user.value.value then Reply(403, "Forbidden")
        else Next
  }

  /** Against the store: an author check lets a request through exactly when
      the test exists and the signed-in user wrote it. */
  lemma AuthorCheckAdmitsOnlyAuthor(db: Db, user: Option<Number>, testId: Number)
    ensures TestMiddleware(true, user, testId, (id: int) => LookupAuthor(db, id)) == Next <==>
      && user.Some? && user.value.Int? && testId.Int?
      && TestById(db, testId.value).Some?
      && db.tests[TestById(db, testId.value).value].authorId == user.value.value
  {
  }

  /** Without the author check, any signed-in user gets through to an
      existing test, whether their id is a number or not. */
  lemma PlainCheckAdmitsAnyUser(db: Db, user: Option<Number>, testId: Number)
    ensures TestMiddleware(false, user, testId, (id: int) => LookupAuthor(db, id)) == Next <==>
      user.Some? && testId.Int? && TestById(db, testId.value).Some?
  {
  }

  /** An id of 0 is a number, so it passes the NaN check and is answered
      with 404 when no test has id 0. */
  lemma ZeroTestIdIsLookedUp(db: Db, checkAuthor: bool, uid: int)
    requires TestById(db, 0).None?
    ensures TestMiddleware(checkAuthor, Some(Int(uid)), Int(0), (id: int) => LookupAuthor(db, id)) == Reply(404, "Test not found")
  {
  }
}

=== FILE: aggregation.dfy ===
/** Folding the answers of a finished session into a result: each answer is
    matched to its question, scored and classified, and the classifications
    and points are tallied. */
module Aggregation {
  import opened Wrappers
  import opened Scoring

  /** A submitted answer with its selected options resolved, in the order the
      store returns them. */
  datatype Answer = Answer(id: int, questionId: int, selected: seq<QuizOption>)

  /** The score and status written back onto one answer row. */
  datatype Graded = Graded(answerId: int, score: real, status: AnswerStatus)

  /** The four counters kept while folding the answers, with the running total. */
  datatype Tally = Tally(countCorrect: nat, countWrong: nat, countAlmostCorrect: nat, totalScore: real)

  /** The tally together with the per-answer updates, in answer order. */
  datatype Grading = Grading(tally: Tally, graded: seq<Graded>)

  /** What a test result records about a session. */
  datatype Summary = Summary(
    countCorrect: nat, countWrong: nat, countAlmostCorrect: nat, countSkipped: nat, totalScore: real)

  predicate AllScorable(questions: seq<Question>) {
    forall i :: 0 <= i < |questions| ==> Scorable(questions[i])
  }

  /** The first question with the given id (`questions.find`). */
  function FindQuestion(questions: seq<Question>, id: int): (r: Option<Question>)
    ensures r.Some? ==> r.value in questions && r.value.id == id
    ensures r.None? <==> forall i :: 0 <= i < |questions| ==> questions[i].id != id
    ensures r.Some? ==>
      (exists k :: 0 <= k < |questions| && questions[k] == r.value
         && forall j :: 0 <= j < k ==> questions[j].id != id)
    decreases |questions|
  {
    if |questions| == 0 then None
    else if questions[0].id == id then Some(questions[0])
    else
      var rest := FindQuestion(questions[1..], id);
      assert rest.Some? ==>
        (exists k :: 1 <= k < |questions| && questions[k] == rest.value
           && forall j :: 0 <= j < k ==> questions[j].id != id) by {
        if rest.Some? {
          var k :| 0 <= k < |questions[1..]| && questions[1..][k] == rest.value
            && forall j :: 0 <= j < k ==> questions[1..][j].id != id;
          assert forall j :: 1 <= j < k + 1 ==> questions[j] == questions[1..][j - 1];
        }
      }
      rest
  }

  /** The answer refers to a question of the test. */
  predicate Matches(questions: seq<Question>, a: Answer) {
    exists i :: 0 <= i < |questions| && questions[i].id == a.questionId
  }

  /** An answer matches iff `find` finds its question. */
  lemma MatchesIffFound(questions: seq<Question>, a: Answer)
    ensures Matches(questions, a) <==> FindQuestion(questions, a.questionId).Some?
  {
    var r := FindQuestion(questions, a.questionId);
    if r.Some? {
      var k :| 0 <= k < |questions| && questions[k] == r.value;
    }
  }

  /** The answers that refer to a question of the test, in order. */
  function MatchedAnswers(questions: seq<Question>, answers: seq<Answer>): (r: seq<Answer>)
    ensures |r| <= |answers|
    ensures forall a :: a in r <==> a in answers && Matches(questions, a)
    decreases |answers|
  {
    if |answers| == 0 then []
    else
      var prev := MatchedAnswers(questions, answers[..|answers| - 1]);
      var a := answers[|answers| - 1];
      assert answers == answers[..|answers| - 1] + [a];
      if Matches(questions, a) then prev + [a] else prev
  }

  /** Each matched answer is kept exactly as often as it occurs, and no
      other answer is kept. */
  lemma {:induction false} MatchedAnswersCount(questions: seq<Question>, answers: seq<Answer>)
    ensures forall a ::
              multiset(MatchedAnswers(questions, answers))[a] ==
              if Matches(questions, a) then multiset(answers)[a] else 0
    decreases |answers|
  {
    if |answers| > 0 {
      var init := answers[..|answers| - 1];
      MatchedAnswersCount(questions, init);
      assert answers == init + [answers[|answers| - 1]];
    }
  }

  /** The update an answer that matches a question receives. */
  function GradeOf(questions: seq<Question>, a: Answer): Graded
    requires AllScorable(questions) && Matches(questions, a)
  {
    var q := FindQuestion(questions, a.questionId).value;
    Graded(a.id, Score(q, a.selected), Status(q, a.selected))
  }

  /** The counter update of the source: one of the three counters goes up by
      one, decided by comparing the points with the question's score. */
  function Tick(t: Tally, score: real, max: real): Tally {
    if score == max then t.(countCorrect := t.countCorrect + 1)
    else if score > 0.0 then t.(countAlmostCorrect := t.countAlmostCorrect + 1)
    else t.(countWrong := t.countWrong + 1)
  }

  /** How many updates carry status `s`. */
  function CountStatus(graded: seq<Graded>, s: AnswerStatus): nat
    decreases |graded|
  {
    if |graded| == 0 then 0
    else CountStatus(graded[..|graded| - 1], s) + (if graded[|graded| - 1].status == s then 1 else 0)
  }

  /** The sum of the points of the updates. */
  function SumScores(graded: seq<Graded>): real
    decreases |graded|
  {
    if |graded| == 0 then 0.0
    else SumScores(graded[..|graded| - 1]) + graded[|graded| - 1].score
  }

  /** The updates after `answers`: one per answer whose question is in the
      test, in order, each the grade of that answer. */
  predicate GradesMatched(questions: seq<Question>, answers: seq<Answer>, graded: seq<Graded>)
    requires AllScorable(questions)
  {
    && |graded| == |MatchedAnswers(questions, answers)|
    && forall i :: 0 <= i < |graded| ==>
         Matches(questions, MatchedAnswers(questions, answers)[i]) &&
         graded[i] == GradeOf(questions, MatchedAnswers(questions, answers)[i])
  }

  /** Each counter is the number of updates with its status, no update is
      SKIPPED, the three counters add up to the updates, and the total is the
      sum of their points. */
  predicate TallyCounts(g: Grading) {
    && g.tally.countCorrect == CountStatus(g.graded, Correct)
    && g.tally.countAlmostCorrect == CountStatus(g.graded, AlmostCorrect)
    && g.tally.countWrong == CountStatus(g.graded, Incorrect)
    && CountStatus(g.graded, Skipped) == 0
    && (forall i :: 0 <= i < |g.graded| ==> g.graded[i].status != Skipped)
    && g.tally.countCorrect + g.tally.countWrong + g.tally.countAlmostCorrect == |g.graded|
    && g.tally.totalScore == SumScores(g.graded)
  }

  /** The loop over the session's answers, in order: an answer whose question
      is not in the test is skipped over; any other is scored, counted once
      and added to the total, and its update recorded. The counters are kept
      apart from the status written on the answer, as in the source, and the
      contract ties the two together. */
  function Aggregate(questions: seq<Question>, answers: seq<Answer>): (g: Grading)
    requires AllScorable(questions)
    ensures GradesMatched(questions, answers, g.graded)
    ensures TallyCounts(g)
    decreases |answers|
  {
    if |answers| == 0 then Grading(Tally(0, 0, 0, 0.0), [])
    else
      var init := answers[..|answers| - 1];
      var prev := Aggregate(questions, init);
      var a := answers[|answers| - 1];
      MatchesIffFound(questions, a);
      match FindQuestion(questions, a.questionId)
      case None =>
        assert MatchedAnswers(questions, answers) == MatchedAnswers(questions, init);
        prev
      case Some(q) =>
        var g := GradeOf(questions, a);
        GradedExtend(questions, answers, prev.graded, g);
        TurnKeepsTally(prev, g, q.score);
        Turn(prev, g, q.score)
  }

  /** One turn of the loop for an answer graded `g` on a question worth
      `max`: tick the counter its points select, add the points to the total
      and record the update. */
  function Turn(prev: Grading, g: Graded, max: real): Grading {
    var t := Tick(prev.tally, g.score, max);
    Grading(t.(totalScore := t.totalScore + g.score), prev.graded + [g])
  }

  /** A turn keeps the counters counting the statuses and the total summing
      the points. */
  lemma TurnKeepsTally(prev: Grading, g: Graded, max: real)
    requires TallyCounts(prev) && g.status == Classify(g.score, max)
    ensures TallyCounts(Turn(prev, g, max))
  {
    TickFollowsStatus(prev.tally, prev.graded, g, max);
    SumScoresSnoc(prev.graded, g);
  }

  /** One more update adds its points to the sum. */
  lemma SumScoresSnoc(graded: seq<Graded>, g: Graded)
    ensures SumScores(graded + [g]) == SumScores(graded) + g.score
  {
    assert (graded + [g])[..|graded|] == graded;
  }

  /** One more update moves exactly the counter of its status. */
  lemma TickFollowsStatus(t: Tally, graded: seq<Graded>, g: Graded, max: real)
    requires t.countCorrect == CountStatus(graded, Correct)
    requires t.countAlmostCorrect == CountStatus(graded, AlmostCorrect)
    requires t.countWrong == CountStatus(graded, Incorrect)
    requires CountStatus(graded, Skipped) == 0
    requires g.status == Classify(g.score, max)
    ensures var t' := Tick(t, g.score, max);
      && t'.countCorrect == CountStatus(graded + [g], Correct)
      && t'.countAlmostCorrect == CountStatus(graded + [g], AlmostCorrect)
      && t'.countWrong == CountStatus(graded + [g], Incorrect)
      && CountStatus(graded + [g], Skipped) == 0
  {
    assert (graded + [g])[..|graded|] == graded;
  }

  /** The updates of the matched answers before the last one, followed by the
      last answer's update, are the updates of all matched answers. */
  lemma GradedExtend(questions: seq<Question>, answers: seq<Answer>, prev: seq<Graded>, g: Graded)
    requires AllScorable(questions) && |answers| > 0
    requires Matches(questions, answers[|answers| - 1])
    requires g == GradeOf(questions, answers[|answers| - 1])
    requires GradesMatched(questions, answers[..|answers| - 1], prev)
    ensures GradesMatched(questions, answers, prev + [g])
  {
    var m := MatchedAnswers(questions, answers[..|answers| - 1]);
    assert MatchedAnswers(questions, answers) == m + [answers[|answers| - 1]];
  }

  /** `countSkipped`: the questions left without an answer row, by
      subtraction, and 0 when there are more answer rows than questions. */
  function CountSkipped(answerCount: nat, questionCount: nat): (r: nat)
    ensures answerCount <= questionCount ==> answerCount + r == questionCount
    ensures answerCount > questionCount ==> r == 0
  {
    if answerCount <= questionCount then questionCount - answerCount else 0
  }

  /** The result of a session: the fold's counters and total, and the skipped
      count derived from the number of answer rows. */
  function Summarize(questions: seq<Question>, answers: seq<Answer>): (s: Summary)
    requires AllScorable(questions)
    ensures s.countCorrect + s.countWrong + s.countAlmostCorrect == |MatchedAnswers(questions, answers)|
    ensures |answers| <= |questions| ==>
      s.countCorrect + s.countWrong + s.countAlmostCorrect + s.countSkipped
        == |questions| - (|answers| - |MatchedAnswers(questions, answers)|)
    ensures |answers| > |questions| ==> s.countSkipped == 0
    ensures s.totalScore == SumScores(Aggregate(questions, answers).graded)
  {
    var t := Aggregate(questions, answers).tally;
    Summary(t.countCorrect, t.countWrong, t.countAlmostCorrect,
            CountSkipped(|answers|, |questions|), t.totalScore)
  }

  // ---------------------------------------------------------------------
  // Properties of the fold
  // ---------------------------------------------------------------------

  /** When every answer refers to a question of the test and there are no
      more answers than questions, the four counts add up to the number of
      questions. */
  lemma CountsCoverQuestions(questions: seq<Question>, answers: seq<Answer>)
    requires AllScorable(questions)
    requires forall i :: 0 <= i < |answers| ==> Matches(questions, answers[i])
    requires |answers| <= |questions|
    ensures var s := Summarize(questions, answers);
      s.countCorrect + s.countWrong + s.countAlmostCorrect + s.countSkipped == |questions|
  {
    AllMatchedKeepsAll(questions, answers);
  }

  /** With more answer rows than questions (a question answered twice), the
      counts add up to more than the number of questions. */
  lemma CountsExceedQuestions(questions: seq<Question>, answers: seq<Answer>)
    requires AllScorable(questions)
    requires forall i :: 0 <= i < |answers| ==> Matches(questions, answers[i])
    requires |answers| > |questions|
    ensures var s := Summarize(questions, answers);
      s.countCorrect + s.countWrong + s.countAlmostCorrect + s.countSkipped == |answers|
  {
    AllMatchedKeepsAll(questions, answers);
  }

  /** The positions of the answers that refer to no question of the test. */
  ghost function UnmatchedRows(questions: seq<Question>, answers: seq<Answer>): set<int> {
    set k | 0 <= k < |answers| && !Matches(questions, answers[k])
  }

  /** Every answer is either scored or refers to no question of the test. */
  lemma {:induction false} MatchedPlusUnmatched(questions: seq<Question>, answers: seq<Answer>)
    ensures |MatchedAnswers(questions, answers)| + |UnmatchedRows(questions, answers)| == |answers|
    decreases |answers|
  {
    if |answers| > 0 {
      MatchedPlusUnmatched(questions, answers[..|answers| - 1]);
      UnmatchedRowsSnoc(questions, answers);
    }
  }

  lemma UnmatchedRowsSnoc(questions: seq<Question>, answers: seq<Answer>)
    requires |answers| > 0
    ensures var n := |answers| - 1;
      && n !in UnmatchedRows(questions, answers[..n])
      && UnmatchedRows(questions, answers) ==
           UnmatchedRows(questions, answers[..n]) + (if Matches(questions, answers[n]) then {} else {n})
  {
  }

  /** With no more answer rows than questions, the four counts fall short of
      the number of questions by exactly the rows that refer to no question
      of the test. */
  lemma CountsShortByUnmatched(questions: seq<Question>, answers: seq<Answer>)
    requires AllScorable(questions)
    requires |answers| <= |questions|
    ensures var s := Summarize(questions, answers);
      s.countCorrect + s.countWrong + s.countAlmostCorrect + s.countSkipped
        + |UnmatchedRows(questions, answers)| == |questions|
  {
    MatchedPlusUnmatched(questions, answers);
  }

  lemma {:induction false} AllMatchedKeepsAll(questions: seq<Question>, answers: seq<Answer>)
    requires forall i :: 0 <= i < |answers| ==> Matches(questions, answers[i])
    ensures MatchedAnswers(questions, answers) == answers
    decreases |answers|
  {
    if |answers| > 0 {
      var init := answers[..|answers| - 1];
      var a := answers[|answers| - 1];
      assert forall i :: 0 <= i < |init| ==> Matches(questions, init[i]) by {
        forall i | 0 <= i < |init| ensures Matches(questions, init[i]) {
          assert init[i] == answers[i];
        }
      }
      AllMatchedKeepsAll(questions, init);
      assert answers == init + [a];
    }
  }

  /** An answer whose question is not in the test contributes nothing: the
      fold over all answers equals the fold over the matching ones. */
  lemma {:induction false} UnmatchedIgnored(questions: seq<Question>, answers: seq<Answer>)
    requires AllScorable(questions)
    ensures Aggregate(questions, answers) == Aggregate(questions, MatchedAnswers(questions, answers))
    decreases |answers|
  {
    if |answers| > 0 {
      var init := answers[..|answers| - 1];
      var a := answers[|answers| - 1];
      var m := MatchedAnswers(questions, init);
      UnmatchedIgnored(questions, init);
      MatchedIsFixed(questions, init);
      if Matches(questions, a) {
        assert MatchedAnswers(questions, answers) == m + [a];
        assert (m + [a])[..|m + [a]| - 1] == m;
      }
    }
  }

  /** Filtering twice is filtering once. */
  lemma {:induction false} MatchedIsFixed(questions: seq<Question>, answers: seq<Answer>)
    ensures MatchedAnswers(questions, MatchedAnswers(questions, answers)) == MatchedAnswers(questions, answers)
  {
    var m := MatchedAnswers(questions, answers);
    assert forall i :: 0 <= i < |m| ==> Matches(questions, m[i]) by {
      forall i | 0 <= i < |m| ensures Matches(questions, m[i]) {
        assert m[i] in m;
      }
    }
    AllMatchedKeepsAll(questions, m);
  }

  /** Nothing is ever classified SKIPPED, and every update's status is the
      classification of its own points against its question's score. */
  lemma StatusFollowsScore(questions: seq<Question>, answers: seq<Answer>, i: int)
    requires AllScorable(questions)
    requires 0 <= i < |MatchedAnswers(questions, answers)|
    ensures var g := Aggregate(questions, answers).graded[i];
      var q := FindQuestion(questions, MatchedAnswers(questions, answers)[i].questionId).value;
      && g.status != Skipped
      && (g.status == Correct <==> g.score == q.score)
      && (g.status == AlmostCorrect <==> g.score != q.score && g.score > 0.0)
      && (g.status == Incorrect <==> g.score != q.score && g.score <= 0.0)
  {
  }

  // ---------------------------------------------------------------------
  // Bounds on the total
  // ---------------------------------------------------------------------

  /** Every question is worth a non-negative score. */
  predicate NonNegativeScores(questions: seq<Question>) {
    forall i :: 0 <= i < |questions| ==> questions[i].score >= 0.0
  }

  /** No answer selects the same option twice. */
  predicate DistinctSelections(answers: seq<Answer>) {
    forall i :: 0 <= i < |answers| ==> DistinctIds(answers[i].selected)
  }

  /** The most the matching answers could earn: the sum of their questions' scores. */
  function MaxPoints(questions: seq<Question>, answers: seq<Answer>): real
    decreases |answers|
  {
    if |answers| == 0 then 0.0
    else
      var a := answers[|answers| - 1];
      MaxPoints(questions, answers[..|answers| - 1]) +
        match FindQuestion(questions, a.questionId)
        case None => 0.0
        case Some(q) => q.score
  }

  /** One answer's points lie between 0 and its question's score. */
  lemma AnswerBounds(q: Question, sel: seq<QuizOption>)
    requires Scorable(q) && q.score >= 0.0 && DistinctIds(sel)
    ensures 0.0 <= Score(q, sel) <= q.score
  {
    if q.qtype == Multiple {
      MultipleBounds(q, sel);
    }
  }

  /** The total lies between 0 and the sum of the matched questions' scores. */
  lemma {:induction false} TotalBounds(questions: seq<Question>, answers: seq<Answer>)
    requires AllScorable(questions) && NonNegativeScores(questions)
    requires DistinctSelections(answers)
    ensures 0.0 <= Aggregate(questions, answers).tally.totalScore <= MaxPoints(questions, answers)
    decreases |answers|
  {
    if |answers| > 0 {
      var init := answers[..|answers| - 1];
      var a := answers[|answers| - 1];
      TotalBounds(questions, init);
      match FindQuestion(questions, a.questionId)
      case None =>
      case Some(q) =>
        AnswerBounds(q, a.selected);
    }
  }
}

=== FILE: code_gen.dfy ===
/** Drawing a fresh test code: up to ten random candidates are drawn, one
    after the other, until one is not carried by any test. The random draws
    are a parameter: `candidates[i]` is the code the generator yields on
    attempt `i`. */
module CodeGen {
  import opened Wrappers
  import opened Store

  const MaxAttempts: nat := 10
  const CodeAlphabet := "ABCDEFGHIJKLMNOPQRSTUVWXYZ0123456789"
  const CodeLength: nat := 8

  /** A code the generator can yield: eight characters of the alphabet. */
  predicate WellFormedCode(c: string) {
    |c| == CodeLength && forall i :: 0 <= i < |c| ==> c[i] in CodeAlphabet
  }

  /** The reference definition: the first of the first `n` candidates that
      no test carries, if any. */
  function FirstFree(db: Db, candidates: seq<string>, n: nat): (r: Option<nat>)
    requires n <= |candidates|
    ensures r.Some? ==> r.value < n && !CodeInUse(db, candidates[r.value])
    ensures r.Some? ==> forall j :: 0 <= j < r.value ==> CodeInUse(db, candidates[j])
    ensures r.None? <==> forall j :: 0 <= j < n ==> CodeInUse(db, candidates[j])
  {
    if n == 0 then None
    else match FirstFree(db, candidates, n - 1)
      case Some(k) => Some(k)
      case None => if CodeInUse(db, candidates[n - 1]) then None else Some(n - 1)
  }

  /** The code `generateUniqueCode` settles on, or None when every one of the
      ten attempts hits a code in use. */
  function PickCode(db: Db, candidates: seq<string>): (r: Option<string>)
    requires |candidates| >= MaxAttempts
    ensures r.Some? ==> !CodeInUse(db, r.value)
    ensures r.None? <==> forall j :: 0 <= j < MaxAttempts ==> CodeInUse(db, candidates[j])
    ensures r.Some? ==> exists k :: 0 <= k < MaxAttempts && r.value == candidates[k]
    ensures r.Some? && (forall i :: 0 <= i < MaxAttempts ==> WellFormedCode(candidates[i])) ==>
      WellFormedCode(r.value)
  {
    match FirstFree(db, candidates, MaxAttempts)
    case None => None
    case Some(k) => Some(candidates[k])
  }

  /** The retry loop itself: draws until a free code turns up or ten attempts
      are spent. `attempts` is the number of draws made. */
  method GenerateUniqueCode(db: Db, candidates: seq<string>) returns (r: Option<string>, attempts: nat)
    requires |candidates| >= MaxAttempts
    ensures r == PickCode(db, candidates)
    ensures 1 <= attempts <= MaxAttempts
    ensures r.None? ==> attempts == MaxAttempts
    ensures r.Some? ==>
      && r.value == candidates[attempts - 1]
      && forall j :: 0 <= j < attempts - 1 ==> CodeInUse(db, candidates[j])
  {
    var code := "";
    var taken := true;
    attempts := 0;
    while taken && attempts < MaxAttempts
      invariant 0 <= attempts <= MaxAttempts
      invariant forall j :: 0 <= j < attempts - 1 ==> CodeInUse(db, candidates[j])
      invariant attempts == 0 ==> taken
      invariant attempts > 0 ==> code == candidates[attempts - 1] && taken == CodeInUse(db, code)
    {
      code := candidates[attempts];
      taken := CodeInUse(db, code);
      attempts := attempts + 1;
    }
    if taken {
      r := None;
    } else {
      r := Some(code);
    }
    assert r.None? ==> forall j :: 0 <= j < MaxAttempts ==> CodeInUse(db, candidates[j]);
    match FirstFree(db, candidates, MaxAttempts)
    case None =>
    case Some(k) =>
      assert k == attempts - 1;
  }
}

=== FILE: editing.dfy ===
/** The author's side: publishing a test under a fresh code and editing a
    question together with its options. */
module Editing {
  import opened Wrappers
  import opened Scoring
  import opened Store
  import opened JsNumber
  import CodeGen
  import Passing

  // ---------------------------------------------------------------------
  // Publishing
  // ---------------------------------------------------------------------

  /** The validated body of a publish request; an absent field leaves the
      test's value as it was. */
  datatype PublishInput = PublishInput(
    expiresAt: Option<int>, showCorrectAnswers: Option<bool>, showQuestionScore: Option<bool>)

  /** No two tests carry the same code. */
  predicate UniqueCodes(db: Db) {
    forall i, j :: 0 <= i < j < |db.tests| && db.tests[i].code.Some? ==> db.tests[i].code != db.tests[j].code
  }

  /** `publishTest`: the test gets status PUBLISHED and a code no test carried
      before. A falsy id is answered with 404 before the body is looked at; a
      code is drawn before the test is looked up, and a missing test makes
      the update fail like a failed draw, with a 500. `candidates` are the
      generator's draws. */
  function PublishTest(db: Db, testId: Number, input: Option<PublishInput>, candidates: seq<string>)
    : (r: Result<Db, Error>)
    requires |candidates| >= CodeGen.MaxAttempts
    ensures Falsy(testId) ==> r == Failure(NotFound)
    ensures !Falsy(testId) && input.None? ==> r == Failure(BadRequest)
    ensures !Falsy(testId) && input.Some? ==>
      (r.Success? <==> CodeGen.PickCode(db, candidates).Some? && TestById(db, testId.value).Some?)
    ensures !Falsy(testId) && input.Some? && r.Failure? ==> r.error == InternalError(ServerErrorMessage)
    ensures r.Success? ==>
      var k := TestById(db, testId.value).value;
      var c := CodeGen.PickCode(db, candidates).value;
      && |r.value.tests| == |db.tests|
      && r.value == db.(tests := db.tests[k := r.value.tests[k]])
      && !CodeInUse(db, c)
      && r.value.tests[k].id == testId.value
      && r.value.tests[k].code == Some(c)
      && r.value.tests[k].status == Published
      && r.value.tests[k].authorId == db.tests[k].authorId
      && r.value.tests[k].expiresAt == (if input.value.expiresAt.Some? then input.value.expiresAt else db.tests[k].expiresAt)
      && r.value.tests[k].showCorrectAnswers == input.value.showCorrectAnswers.GetOr(db.tests[k].showCorrectAnswers)
      && r.value.tests[k].showQuestionScore == input.value.showQuestionScore.GetOr(db.tests[k].showQuestionScore)
  {
    if Falsy(testId) then Failure(NotFound)
    else if input.None? then Failure(BadRequest)
    else match CodeGen.PickCode(db, candidates)
      case None => Failure(InternalError(ServerErrorMessage))
      case Some(c) =>
        match TestById(db, testId.value)
        case None => Failure(InternalError(ServerErrorMessage))
        case Some(k) =>
          var t := db.tests[k];
          var p := input.value;
          var t' := t.(status := Published, code := Some(c),
                       expiresAt := if p.expiresAt.Some? then p.expiresAt else t.expiresAt,
                       showCorrectAnswers := p.showCorrectAnswers.GetOr(t.showCorrectAnswers),
                       showQuestionScore := p.showQuestionScore.GetOr(t.showQuestionScore));
          Success(db.(tests := db.tests[k := t']))
  }

  /** Publishing keeps the codes of the tests pairwise distinct. */
  lemma PublishKeepsCodesUnique(db: Db, testId: Number, input: Option<PublishInput>, candidates: seq<string>)
    requires |candidates| >= CodeGen.MaxAttempts
    requires UniqueCodes(db)
    requires PublishTest(db, testId, input, candidates).Success?
    ensures UniqueCodes(PublishTest(db, testId, input, candidates).value)
  {
    var db' := PublishTest(db, testId, input, candidates).value;
    var k := TestById(db, testId.value).value;
    var c := CodeGen.PickCode(db, candidates).value;
    forall i, j | 0 <= i < j < |db'.tests| && db'.tests[i].code.Some?
      ensures db'.tests[i].code != db'.tests[j].code
    {
      if i == k {
        assert db.tests[j].code != Some(c);
      } else if j == k {
        assert db.tests[i].code != Some(c);
      }
    }
  }

  /** Publishing a test that already has a code gives it a different one. */
  lemma RepublishChangesCode(db: Db, testId: Number, input: Option<PublishInput>, candidates: seq<string>)
    requires |candidates| >= CodeGen.MaxAttempts
    requires PublishTest(db, testId, input, candidates).Success?
    requires db.tests[TestById(db, testId.value).value].code.Some?
    ensures var k := TestById(db, testId.value).value;
      PublishTest(db, testId, input, candidates).value.tests[k].code != db.tests[k].code
  {
    var k := TestById(db, testId.value).value;
    assert CodeInUse(db, db.tests[k].code.value);
  }

  /** Once published, the test can be joined with its new code, and the new
      session belongs to it. */
  lemma PublishThenJoin(db: Db, testId: Number, input: Option<PublishInput>, candidates: seq<string>,
                        join: Passing.JoinInput, userId: Option<int>, uuid: string)
    requires |candidates| >= CodeGen.MaxAttempts
    requires forall i :: 0 <= i < CodeGen.MaxAttempts ==> CodeGen.WellFormedCode(candidates[i])
    requires PublishTest(db, testId, input, candidates).Success?
    ensures var db' := PublishTest(db, testId, input, candidates).value;
      var c := CodeGen.PickCode(db, candidates).value;
      var r := Passing.JoinTest(db', c, Some(join), userId, uuid);
      && r.Success?
      && r.value.sessions[|db'.sessions|].testId == testId.value
  {
    var db' := PublishTest(db, testId, input, candidates).value;
    var k := TestById(db, testId.value).value;
    var c := CodeGen.PickCode(db, candidates).value;
    assert |c| == CodeGen.CodeLength;
    assert CodeInUse(db', c) by {
      assert db'.tests[k].code == Some(c);
    }
    assert forall j :: 0 <= j < |db'.tests| && j != k ==> db'.tests[j] == db.tests[j];
  }

  // ---------------------------------------------------------------------
  // Editing a question
  // ---------------------------------------------------------------------

  /** One option of an update body: with the id of an option to overwrite, or
      without one for a new option. */
  datatype OptionInput = OptionInput(id: Option<int>, text: string, isCorrect: bool)

  /** The validated body of a question update; an absent field is left as it
      was, and absent `options` leave the options alone. */
  datatype QuestionInput = QuestionInput(
    text: Option<string>, description: Option<string>, score: Option<real>,
    qtype: Option<QuestionType>, options: Option<seq<OptionInput>>)

  /** The ids of the options of question `qid`, in table order. */
  function OptionIdsOf(rows: seq<OptionRow>, qid: int): (r: seq<int>)
    ensures forall x :: x in r <==> exists k :: 0 <= k < |rows| && rows[k].questionId == qid && rows[k].id == x
    decreases |rows|
  {
    if |rows| == 0 then []
    else
      var rest := OptionIdsOf(rows[1..], qid);
      assert forall k :: 1 <= k < |rows| ==> rows[k] == rows[1..][k - 1];
      if rows[0].questionId == qid then [rows[0].id] + rest else rest
  }

  /** The ids the update body names. */
  function IncomingIds(opts: seq<OptionInput>): (r: seq<int>)
    ensures forall x :: x in r <==> exists j :: 0 <= j < |opts| && opts[j].id == Some(x)
    decreases |opts|
  {
    if |opts| == 0 then []
    else
      var rest := IncomingIds(opts[..|opts| - 1]);
      assert forall j :: 0 <= j < |opts| - 1 ==> opts[j] == opts[..|opts| - 1][j];
      match opts[|opts| - 1].id
      case None => rest
      case Some(x) => rest + [x]
  }

  /** The ids of the question's options that the body does not name. */
  function OptionsToDelete(existing: seq<int>, current: seq<int>): (r: seq<int>)
    ensures |r| <= |existing|
    ensures forall x :: x in r <==> x in existing && x !in current
    decreases |existing|
  {
    if |existing| == 0 then []
    else
      var rest := OptionsToDelete(existing[1..], current);
      if existing[0] in current then rest else [existing[0]] + rest
  }

  /** The last entry of the body that upserts against id `x`. */
  function LastTargeting(opts: seq<OptionInput>, x: int): (r: Option<OptionInput>)
    ensures r.Some? ==>
      (exists j :: 0 <= j < |opts| && opts[j] == r.value && opts[j].id.GetOr(-1) == x
         && forall j' :: j < j' < |opts| ==> opts[j'].id.GetOr(-1) != x)
    ensures r.None? <==> !Targets(opts, x)
    decreases |opts|
  {
    if |opts| == 0 then None
    else if opts[|opts| - 1].id.GetOr(-1) == x then Some(opts[|opts| - 1])
    else
      var init := opts[..|opts| - 1];
      assert forall j :: 0 <= j < |init| ==> init[j] == opts[j];
      assert Targets(opts, x) ==> Targets(init, x);
      LastTargeting(init, x)
  }

  /** The upsert of one option: the option with the given id (or with id -1
      when none is given) is overwritten in text and correctness, whatever
      question it belongs to; when there is none, a new option of question
      `qid` is created. */
  function UpsertOption(db: Db, qid: int, o: OptionInput): (r: Db)
    ensures r == db.(options := r.options, nextId := r.nextId)
    ensures OptionById(db, o.id.GetOr(-1)).Some? ==>
      var k := OptionById(db, o.id.GetOr(-1)).value;
      r.nextId == db.nextId && r.options == db.options[k := db.options[k].(text := o.text, isCorrect := o.isCorrect)]
    ensures OptionById(db, o.id.GetOr(-1)).None? ==>
      r.nextId == db.nextId + 1 && r.options == db.options + [OptionRow(db.nextId, qid, o.text, o.isCorrect)]
  {
    match OptionById(db, o.id.GetOr(-1))
    case Some(k) =>
      db.(options := db.options[k := db.options[k].(text := o.text, isCorrect := o.isCorrect)])
    case None =>
      db.(options := db.options + [OptionRow(db.nextId, qid, o.text, o.isCorrect)], nextId := db.nextId + 1)
  }

  /** Some entry of the body upserts against id `x` (an entry without an id
      upserts against -1). */
  predicate Targets(opts: seq<OptionInput>, x: int) {
    exists j :: 0 <= j < |opts| && opts[j].id.GetOr(-1) == x
  }

  /** The upserts of all entries of the body, in order. Existing rows keep
      their id and question, and change only if an entry targets their id;
      new rows are appended for question `qid` with consecutive fresh ids. */
  function UpsertAll(db: Db, qid: int, opts: seq<OptionInput>): (r: Db)
    ensures r == db.(options := r.options, nextId := r.nextId)
    ensures |db.options| <= |r.options| <= |db.options| + |opts|
    ensures r.nextId == db.nextId + (|r.options| - |db.options|)
    ensures forall k :: 0 <= k < |db.options| ==>
      r.options[k] == db.options[k].(text := r.options[k].text, isCorrect := r.options[k].isCorrect)
    ensures forall k :: 0 <= k < |db.options| && !Targets(opts, db.options[k].id) ==>
      r.options[k] == db.options[k]
    ensures forall k :: |db.options| <= k < |r.options| ==>
      r.options[k].questionId == qid && r.options[k].id == db.nextId + (k - |db.options|)
    decreases |opts|
  {
    if |opts| == 0 then db
    else
      var init := opts[..|opts| - 1];
      var o := opts[|opts| - 1];
      var prev := UpsertAll(db, qid, init);
      assert forall x :: Targets(init, x) ==> Targets(opts, x) by {
        assert forall j :: 0 <= j < |init| ==> init[j] == opts[j];
      }
      UpsertOption(prev, qid, o)
  }

  /** The first row carrying an id the body targets ends with the text and
      correctness of the last entry targeting it. */
  lemma {:induction false} UpsertAllLastWins(db: Db, qid: int, opts: seq<OptionInput>, k: nat)
    requires k < |db.options| && OptionById(db, db.options[k].id) == Some(k)
    requires LastTargeting(opts, db.options[k].id).Some?
    ensures var r := UpsertAll(db, qid, opts);
      var e := LastTargeting(opts, db.options[k].id).value;
      r.options[k].text == e.text && r.options[k].isCorrect == e.isCorrect
    decreases |opts|
  {
    var x := db.options[k].id;
    var init := opts[..|opts| - 1];
    var o := opts[|opts| - 1];
    var prev := UpsertAll(db, qid, init);
    assert prev.options[k].id == x;
    assert forall j :: 0 <= j < k ==> prev.options[j].id == db.options[j].id;
    IndexWhereFirst(prev.options, (p: OptionRow) => p.id == x, k);
    assert OptionById(prev, x) == Some(k);
    if o.id.GetOr(-1) != x {
      UpsertAllLastWins(db, qid, init, k);
      var j := OptionById(prev, o.id.GetOr(-1));
      assert j.Some? ==> j.value != k;
    }
  }

  /** The option rows left after deleting those whose id is listed. */
  function DeleteIds(rows: seq<OptionRow>, ids: seq<int>): (r: seq<OptionRow>)
    ensures |r| <= |rows|
    ensures forall o :: o in r <==> o in rows && o.id !in ids
    decreases |rows|
  {
    if |rows| == 0 then []
    else
      var rest := DeleteIds(rows[1..], ids);
      assert forall o :: o in rows <==> o == rows[0] || o in rows[1..];
      if rows[0].id in ids then rest else [rows[0]] + rest
  }

  /** The question row with the body's fields written over it. */
  function EditedQuestion(q: QuestionRow, input: QuestionInput): (r: QuestionRow)
    ensures r.id == q.id && r.testId == q.testId
    ensures r.text == input.text.GetOr(q.text) && r.score == input.score.GetOr(q.score)
    ensures r.qtype == input.qtype.GetOr(q.qtype)
    ensures input.description.Some? ==> r.description == input.description
    ensures input.description.None? ==> r.description == q.description
  {
    q.(text := input.text.GetOr(q.text),
       description := if input.description.Some? then input.description else q.description,
       score := input.score.GetOr(q.score),
       qtype := input.qtype.GetOr(q.qtype))
  }

  /** `updateQuestion`: 404 when either id is falsy, 400 for an invalid body,
      500 when the question does not exist. Otherwise the question's fields
      are overwritten and, when the body lists options, they are upserted and
      the question's options the body does not name are deleted. The test id
      plays no part beyond the falsy check. */
  function UpdateQuestion(db: Db, questionId: Number, testId: Number, input: Option<QuestionInput>)
    : (r: Result<Db, Error>)
    ensures Falsy(questionId) || Falsy(testId) ==> r == Failure(NotFound)
    ensures !Falsy(questionId) && !Falsy(testId) && input.None? ==> r == Failure(BadRequest)
    ensures !Falsy(questionId) && !Falsy(testId) && input.Some? ==>
      (r.Success? <==> QuestionById(db, questionId.value).Some?)
    ensures !Falsy(questionId) && !Falsy(testId) && input.Some? && r.Failure? ==>
      r.error == InternalError(ServerErrorMessage)
    ensures r.Success? ==>
      var k := QuestionById(db, questionId.value).value;
      && r.value == db.(questions := r.value.questions, options := r.value.options, nextId := r.value.nextId)
      && r.value.questions == db.questions[k := EditedQuestion(db.questions[k], input.value)]
      && db.nextId <= r.value.nextId
    ensures r.Success? && input.value.options.None? ==> r.value == db.(questions := r.value.questions)
    ensures r.Success? && input.value.options.Some? ==>
      r.value == ReplaceOptions(db.(questions := r.value.questions), questionId.value, input.value.options.value)
  {
    if Falsy(questionId) || Falsy(testId) then Failure(NotFound)
    else if input.None? then Failure(BadRequest)
    else match QuestionById(db, questionId.value)
      case None => Failure(InternalError(ServerErrorMessage))
      case Some(k) =>
        var db1 := db.(questions := db.questions[k := EditedQuestion(db.questions[k], input.value)]);
        match input.value.options
        case None => Success(db1)
        case Some(opts) => Success(ReplaceOptions(db1, questionId.value, opts))
  }

  /** The option part of an update with options listed: upsert every entry,
      then delete the question's options that the body does not name. */
  function ReplaceOptions(db: Db, qid: int, opts: seq<OptionInput>): (r: Db)
    ensures r == db.(options := r.options, nextId := r.nextId)
    ensures db.nextId <= r.nextId
  {
    var toDelete := OptionsToDelete(OptionIdsOf(db.options, qid), IncomingIds(opts));
    var db2 := UpsertAll(db, qid, opts);
    db2.(options := DeleteIds(db2.options, toDelete))
  }

  /** After an update, every option of the question is one the body names or
      a new one. */
  lemma ReplaceKeepsOnlyListed(db: Db, qid: int, opts: seq<OptionInput>)
    ensures var r := ReplaceOptions(db, qid, opts);
      forall o :: o in r.options && o.questionId == qid ==> o.id in IncomingIds(opts) || o.id >= db.nextId
  {
    var toDelete := OptionsToDelete(OptionIdsOf(db.options, qid), IncomingIds(opts));
    var db2 := UpsertAll(db, qid, opts);
    forall o | o in DeleteIds(db2.options, toDelete) && o.questionId == qid
      ensures o.id in IncomingIds(opts) || o.id >= db.nextId
    {
      var k :| 0 <= k < |db2.options| && db2.options[k] == o;
      if k < |db.options| {
        assert db.options[k].id == o.id && db.options[k].questionId == qid;
        assert o.id in OptionIdsOf(db.options, qid);
      }
    }
  }

  /** An option of the question that the body names survives the update, with
      the text and correctness of the last entry naming it. */
  lemma ReplaceKeepsListed(db: Db, qid: int, opts: seq<OptionInput>, k: nat)
    requires k < |db.options| && db.options[k].questionId == qid
    requires OptionById(db, db.options[k].id) == Some(k)
    requires db.options[k].id in IncomingIds(opts)
    ensures var e := LastTargeting(opts, db.options[k].id);
      && e.Some?
      && OptionRow(db.options[k].id, qid, e.value.text, e.value.isCorrect) in ReplaceOptions(db, qid, opts).options
  {
    var x := db.options[k].id;
    var j :| 0 <= j < |opts| && opts[j].id == Some(x);
    assert opts[j].id.GetOr(-1) == x;
    assert Targets(opts, x);
    var e := LastTargeting(opts, x).value;
    UpsertAllLastWins(db, qid, opts, k);
    var db2 := UpsertAll(db, qid, opts);
    assert db2.options[k] == OptionRow(x, qid, e.text, e.isCorrect);
    assert db2.options[k] in db2.options;
    assert x !in OptionsToDelete(OptionIdsOf(db.options, qid), IncomingIds(opts));
  }

  /** After an update, no option carries the id of an option of the question
      the body did not name. */
  lemma ReplaceDropsUnlisted(db: Db, qid: int, opts: seq<OptionInput>, k: nat)
    requires k < |db.options| && db.options[k].questionId == qid
    requires db.options[k].id !in IncomingIds(opts)
    ensures forall o :: o in ReplaceOptions(db, qid, opts).options ==> o.id != db.options[k].id
  {
    assert db.options[k].id in OptionIdsOf(db.options, qid);
  }

  /** Options of other questions survive an update untouched, unless the body
      names them. */
  lemma ReplaceKeepsOthers(db: Db, qid: int, opts: seq<OptionInput>, k: nat)
    requires IdsBelowNext(db)
    requires k < |db.options| && db.options[k].id !in IncomingIds(opts)
    requires db.options[k].id !in OptionIdsOf(db.options, qid)
    ensures db.options[k] in ReplaceOptions(db, qid, opts).options
  {
    var db2 := UpsertAll(db, qid, opts);
    assert forall j :: 0 <= j < |opts| ==> opts[j].id.GetOr(-1) != db.options[k].id;
    assert db2.options[k] == db.options[k];
  }

  /** Every option created by an update belongs to the question, and the ids
      stay below the counter. */
  lemma ReplaceNewOptionsBelong(db: Db, qid: int, opts: seq<OptionInput>)
    requires IdsBelowNext(db)
    ensures var r := ReplaceOptions(db, qid, opts);
      && IdsBelowNext(r)
      && forall o :: o in r.options && o.id >= db.nextId ==> o.questionId == qid
  {
    var toDelete := OptionsToDelete(OptionIdsOf(db.options, qid), IncomingIds(opts));
    var db2 := UpsertAll(db, qid, opts);
    var r := ReplaceOptions(db, qid, opts);
    forall o | o in r.options
      ensures 0 < o.id < r.nextId
      ensures o.id >= db.nextId ==> o.questionId == qid
    {
      var k :| 0 <= k < |db2.options| && db2.options[k] == o;
      if k < |db.options| {
        assert o.id == db.options[k].id;
      }
    }
    assert forall k :: 0 <= k < |r.options| ==> r.options[k] in r.options;
  }

  /** No two option rows share an id. */
  predicate DistinctOptionIds(rows: seq<OptionRow>) {
    forall i, j :: 0 <= i < j < |rows| ==> rows[i].id != rows[j].id
  }

  /** In rows with distinct ids, no later row carries the first row's id. */
  lemma HeadIdNotInTail(rows: seq<OptionRow>)
    requires |rows| > 0 && DistinctOptionIds(rows)
    ensures forall o :: o in rows[1..] ==> o.id != rows[0].id
  {
    forall o | o in rows[1..] ensures o.id != rows[0].id {
      var k :| 0 <= k < |rows| - 1 && rows[1..][k] == o;
      assert rows[k + 1] == o;
    }
  }

  /** A row put in front of rows with distinct ids, none carrying its id,
      keeps the ids distinct. */
  lemma ConsKeepsDistinct(o: OptionRow, rest: seq<OptionRow>)
    requires DistinctOptionIds(rest)
    requires forall x :: x in rest ==> x.id != o.id
    ensures DistinctOptionIds([o] + rest)
  {
    var r := [o] + rest;
    forall i, j | 0 <= i < j < |r| ensures r[i].id != r[j].id {
      assert r[j] == rest[j - 1];
      if i == 0 {
        assert r[j] in rest;
      } else {
        assert r[i] == rest[i - 1];
      }
    }
  }

  /** Deleting rows keeps the remaining ids distinct. */
  lemma {:induction false} DeleteIdsKeepsDistinct(rows: seq<OptionRow>, ids: seq<int>)
    requires DistinctOptionIds(rows)
    ensures DistinctOptionIds(DeleteIds(rows, ids))
    decreases |rows|
  {
    if |rows| > 0 {
      var rest := DeleteIds(rows[1..], ids);
      assert DistinctOptionIds(rows[1..]);
      DeleteIdsKeepsDistinct(rows[1..], ids);
      if rows[0].id !in ids {
        HeadIdNotInTail(rows);
        ConsKeepsDistinct(rows[0], rest);
      }
    }
  }

  /** Upserting keeps option ids distinct: existing rows keep theirs and new
      rows take fresh ones. */
  lemma UpsertAllKeepsDistinct(db: Db, qid: int, opts: seq<OptionInput>)
    requires DistinctOptionIds(db.options)
    requires forall k :: 0 <= k < |db.options| ==> db.options[k].id < db.nextId
    ensures DistinctOptionIds(UpsertAll(db, qid, opts).options)
  {
    var r := UpsertAll(db, qid, opts);
    forall i, j | 0 <= i < j < |r.options| ensures r.options[i].id != r.options[j].id {
      if j < |db.options| {
        assert r.options[i].id == db.options[i].id && r.options[j].id == db.options[j].id;
      } else if i < |db.options| {
        assert r.options[i].id == db.options[i].id;
      }
    }
  }

  /** Publishing keeps every id positive, unique and below the counter. */
  lemma PublishKeepsKeys(db: Db, testId: Number, input: Option<PublishInput>, candidates: seq<string>)
    requires |candidates| >= CodeGen.MaxAttempts
    requires WellKeyed(db)
    requires PublishTest(db, testId, input, candidates).Success?
    ensures WellKeyed(PublishTest(db, testId, input, candidates).value)
  {
    var db' := PublishTest(db, testId, input, candidates).value;
    var k := TestById(db, testId.value).value;
    assert forall j :: 0 <= j < |db.tests| ==> db'.tests[j].id == db.tests[j].id;
  }

  /** Replacing a question's options keeps every id positive, unique and
      below the counter. */
  lemma ReplaceKeepsKeys(db: Db, qid: int, opts: seq<OptionInput>)
    requires WellKeyed(db)
    ensures WellKeyed(ReplaceOptions(db, qid, opts))
  {
    ReplaceNewOptionsBelong(db, qid, opts);
    UpsertAllKeepsDistinct(db, qid, opts);
    var toDelete := OptionsToDelete(OptionIdsOf(db.options, qid), IncomingIds(opts));
    DeleteIdsKeepsDistinct(UpsertAll(db, qid, opts).options, toDelete);
  }

  /** Editing a question keeps every id positive, unique and below the counter. */
  lemma UpdateKeepsKeys(db: Db, questionId: Number, testId: Number, input: Option<QuestionInput>)
    requires WellKeyed(db)
    requires UpdateQuestion(db, questionId, testId, input).Success?
    ensures WellKeyed(UpdateQuestion(db, questionId, testId, input).value)
  {
    var k := QuestionById(db, questionId.value).value;
    var db1 := db.(questions := db.questions[k := EditedQuestion(db.questions[k], input.value)]);
    assert forall j :: 0 <= j < |db.questions| ==> db1.questions[j].id == db.questions[j].id;
    assert WellKeyed(db1);
    if input.value.options.Some? {
      ReplaceKeepsKeys(db1, questionId.value, input.value.options.value);
    }
  }

  /** Which test the request names does not matter, as long as it is truthy. */
  lemma UpdateIgnoresTestId(db: Db, questionId: Number, t1: Number, t2: Number, input: Option<QuestionInput>)
    requires !Falsy(t1) && !Falsy(t2)
    ensures UpdateQuestion(db, questionId, t1, input) == UpdateQuestion(db, questionId, t2, input)
  {
  }
}

=== FILE: js_number.dfy ===
/** The JavaScript numbers the handlers obtain from `Number(...)` of a path
    parameter, and the user id carried by a request: either NaN or an
    integer. Fractions and infinities are not represented. */
module JsNumber {
  datatype Number = NaN | Int(value: int)

  /** `!n`: NaN and zero are the falsy numbers. */
  predicate Falsy(n: Number) {
    n.NaN? || n.value == 0
  }
}

=== FILE: js_text.dfy ===
/** The one string operation the scoring engine relies on:
    `String.prototype.trim`, as ECMA-262 defines it. */
module JsText {

  /** The characters `trim` strips: the WhiteSpace and LineTerminator code
      points of ECMA-262 (tab, line feed, vertical tab, form feed, carriage
      return, the space separators of Unicode category Zs, the byte order
      mark, and the line and paragraph separators). */
  predicate IsTrimmable(c: char) {
    var n := c as int;
    || n == 0x09 || n == 0x0A || n == 0x0B || n == 0x0C || n == 0x0D
    || n == 0x20 || n == 0xA0 || n == 0x1680
    || (0x2000 <= n <= 0x200A)
    || n == 0x2028 || n == 0x2029 || n == 0x202F || n == 0x205F
    || n == 0x3000 || n == 0xFEFF
  }

  /** `s` with its leading trimmable characters removed. */
  function TrimStart(s: string): (r: string)
    ensures |r| <= |s| && r == s[|s| - |r|..]
    ensures forall k :: 0 <= k < |s| - |r| ==> IsTrimmable(s[k])
    ensures r == [] || !IsTrimmable(r[0])
  {
    if |s| > 0 && IsTrimmable(s[0]) then TrimStart(s[1..]) else s
  }

  /** `s` with its trailing trimmable characters removed. */
  function TrimEnd(s: string): (r: string)
    ensures |r| <= |s| && r == s[..|r|]
    ensures forall k :: |r| <= k < |s| ==> IsTrimmable(s[k])
    ensures r == [] || !IsTrimmable(r[|r| - 1])
  {
    if |s| > 0 && IsTrimmable(s[|s| - 1]) then TrimEnd(s[..|s| - 1]) else s
  }

  /** The number of trimmable characters that open `s`. */
  function LeadingTrimmable(s: string): nat {
    |s| - |TrimStart(s)|
  }

  /** `s.trim()`: the longest infix of `s` that neither starts nor ends with a
      trimmable character, reached by dropping only trimmable characters. */
  function Trim(s: string): (r: string)
    ensures LeadingTrimmable(s) + |r| <= |s|
    ensures r == s[LeadingTrimmable(s)..LeadingTrimmable(s) + |r|]
    ensures forall k :: 0 <= k < LeadingTrimmable(s) ==> IsTrimmable(s[k])
    ensures forall k :: LeadingTrimmable(s) + |r| <= k < |s| ==> IsTrimmable(s[k])
    ensures r == [] || (!IsTrimmable(r[0]) && !IsTrimmable(r[|r| - 1]))
  {
    var t := TrimStart(s);
    var r := TrimEnd(t);
    TrimmableTail(s, t, |r|);
    r
  }

  /** Trimmable characters at the end of a suffix are trimmable characters
      at the end of the whole string. */
  lemma TrimmableTail(s: string, t: string, m: nat)
    requires |t| <= |s| && t == s[|s| - |t|..] && m <= |t|
    requires forall k :: m <= k < |t| ==> IsTrimmable(t[k])
    ensures forall k :: |s| - |t| + m <= k < |s| ==> IsTrimmable(s[k])
  {
    forall k | |s| - |t| + m <= k < |s| ensures IsTrimmable(s[k]) {
      assert s[k] == t[k - (|s| - |t|)];
    }
  }

  /** A string that has no trimmable character at either end is its own trim. */
  lemma TrimmedIsFixed(s: string)
    requires s == [] || (!IsTrimmable(s[0]) && !IsTrimmable(s[|s| - 1]))
    ensures Trim(s) == s
  {
  }

  /** Trimming twice is trimming once. */
  lemma TrimIdempotent(s: string)
    ensures Trim(Trim(s)) == Trim(s)
  {
    TrimmedIsFixed(Trim(s));
  }

  /** Trimming keeps case: a submission that differs from the stored text only
      in letter case and surrounding blanks does not trim to that text. */
  lemma TrimKeepsCase()
    ensures Trim("  Paris ") == "Paris"
    ensures Trim("  paris ") != "Paris"
  {
    var s := "  Paris ";
    assert IsTrimmable(s[0]) && IsTrimmable(s[1]) && !IsTrimmable(s[2]);
    var t := "  paris ";
    assert IsTrimmable(t[0]) && IsTrimmable(t[1]) && !IsTrimmable(t[2]);
  }
}

=== FILE: passing.dfy ===
/** The respondent's side of a test: joining by code, saving answers, sending
    the session in to be scored, and reading the result back. Each handler is
    a function from the store (and the request) to the new store or an error;
    an error leaves the store as it was. */
module Passing {
  import opened Wrappers
  import opened Scoring
  import Aggregation
  import opened Store

  // ---------------------------------------------------------------------
  // Joining a test
  // ---------------------------------------------------------------------

  /** The validated body of a join request. */
  datatype JoinInput = JoinInput(guestName: Option<string>)

  /** `joinTest`: a new IN_PROGRESS session for the test with the given code.
      Neither the test's status nor its expiry date is consulted. `userId` is
      the signed-in user, if any; `uuid` is the identifier the store
      generates for the new session. */
  function JoinTest(db: Db, code: string, input: Option<JoinInput>, userId: Option<int>, uuid: string)
    : (r: Result<Db, Error>)
    ensures input.None? ==> r == Failure(BadRequest)
    ensures input.Some? && code == "" ==> r == Failure(BadRequest)
    ensures input.Some? && code != "" && !CodeInUse(db, code) ==> r == Failure(NotFound)
    ensures input.Some? && code != "" && CodeInUse(db, code) ==> r.Success?
    ensures r.Success? ==>
      && r.value == db.(sessions := r.value.sessions, nextId := db.nextId + 1)
      && |r.value.sessions| == |db.sessions| + 1
      && r.value.sessions[..|db.sessions|] == db.sessions
      && var s := r.value.sessions[|db.sessions|];
         && s.id == db.nextId && s.uuid == uuid && s.userId == userId
         && s.guestName == input.value.guestName
         && s.status == InProgress && s.endedAt == None
         && (exists k :: 0 <= k < |db.tests| && db.tests[k].code == Some(code) && db.tests[k].id == s.testId)
  {
    if input.None? then Failure(BadRequest)
    else if code == "" then Failure(BadRequest)
    else match TestByCode(db, code)
      case None => Failure(NotFound)
      case Some(k) =>
        var s := SessionRow(db.nextId, uuid, db.tests[k].id, userId, input.value.guestName, InProgress, None);
        var sessions := db.sessions + [s];
        assert sessions[..|db.sessions|] == db.sessions;
        Success(db.(sessions := sessions, nextId := db.nextId + 1))
  }

  // ---------------------------------------------------------------------
  // Saving an answer
  // ---------------------------------------------------------------------

  predicate NoDuplicates(s: seq<int>) {
    forall i, j :: 0 <= i < j < |s| ==> s[i] != s[j]
  }

  /** Connecting options to an answer: every id not yet connected is added,
      once, after those already there; nothing is ever removed. */
  function Connect(current: seq<int>, ids: seq<int>): (r: seq<int>)
    ensures |current| <= |r| && r[..|current|] == current
    ensures forall x :: x in r <==> x in current || x in ids
    ensures NoDuplicates(current) ==> NoDuplicates(r)
    decreases |ids|
  {
    if |ids| == 0 then current
    else
      var next := if ids[0] in current then current else current + [ids[0]];
      assert next[..|current|] == current;
      var r := Connect(next, ids[1..]);
      assert r[..|current|] == r[..|next|][..|current|];
      assert forall x :: x in ids <==> x == ids[0] || x in ids[1..];
      r
  }

  /** Connecting ids that are all connected already changes nothing. */
  lemma {:induction false} ConnectAbsorbs(current: seq<int>, ids: seq<int>)
    requires forall i :: 0 <= i < |ids| ==> ids[i] in current
    ensures Connect(current, ids) == current
    decreases |ids|
  {
    if |ids| > 0 {
      ConnectAbsorbs(current, ids[1..]);
    }
  }

  /** Connecting the same ids twice is connecting them once. */
  lemma ConnectIdempotent(current: seq<int>, ids: seq<int>)
    ensures Connect(Connect(current, ids), ids) == Connect(current, ids)
  {
    ConnectAbsorbs(Connect(current, ids), ids);
  }

  /** The validated body of an answer request: the session, the question, the
      answer row to add to (if any) and the option ids to connect. */
  datatype AnswerRequest = AnswerRequest(
    testSessionId: int, questionId: int, answerId: Option<int>, selectedOptions: seq<int>)

  /** Every id names an existing option (connecting a missing one fails). */
  predicate OptionsExist(db: Db, ids: seq<int>) {
    forall i :: 0 <= i < |ids| ==> OptionById(db, ids[i]).Some?
  }

  /** The answer row an answer request adds to: the one with `answerId`, if
      that id exists (the upsert looks for id -1 when none is given). */
  function TargetAnswer(db: Db, req: AnswerRequest): Option<nat> {
    AnswerById(db, req.answerId.GetOr(-1))
  }

  /** `answerQuestion`: an upsert keyed only by the answer id. An existing row
      gets the options connected (a union); otherwise a new row is created for
      the question and session. The session's status is not consulted, and an
      existing row is used whatever session or question it belongs to. */
  function AnswerQuestion(db: Db, input: Option<AnswerRequest>): (r: Result<Db, Error>)
    ensures input.None? ==> r == Failure(BadRequest)
    ensures input.Some? && SessionById(db, input.value.testSessionId).None? ==> r == Failure(NotFound)
    ensures (input.Some? && SessionById(db, input.value.testSessionId).Some?
             && QuestionById(db, input.value.questionId).None?) ==> r == Failure(NotFound)
    ensures (input.Some? && SessionById(db, input.value.testSessionId).Some?
             && QuestionById(db, input.value.questionId).Some?
             && !OptionsExist(db, input.value.selectedOptions)) ==> r == Failure(InternalError(ServerErrorMessage))
    ensures input.Some? ==>
      (r.Success? <==> SessionById(db, input.value.testSessionId).Some?
                       && QuestionById(db, input.value.questionId).Some?
                       && OptionsExist(db, input.value.selectedOptions))
    ensures r.Success? ==> r.value == db.(answers := r.value.answers, nextId := r.value.nextId)
    ensures r.Success? && TargetAnswer(db, input.value).Some? ==>
      var k := TargetAnswer(db, input.value).value;
      && r.value.nextId == db.nextId
      && |r.value.answers| == |db.answers|
      && (forall j :: 0 <= j < |db.answers| && j != k ==> r.value.answers[j] == db.answers[j])
      && r.value.answers[k] == db.answers[k].(selected := r.value.answers[k].selected)
      && (forall x :: x in r.value.answers[k].selected <==>
            x in db.answers[k].selected || x in input.value.selectedOptions)
    ensures r.Success? && TargetAnswer(db, input.value).None? ==>
      && r.value.nextId == db.nextId + 1
      && |r.value.answers| == |db.answers| + 1
      && r.value.answers[..|db.answers|] == db.answers
      && var a := r.value.answers[|db.answers|];
         && a.id == db.nextId && a.questionId == input.value.questionId
         && a.sessionId == input.value.testSessionId
         && (forall x :: x in a.selected <==> x in input.value.selectedOptions)
         && NoDuplicates(a.selected)
         && a.score.None? && a.status.None?
  {
    if input.None? then Failure(BadRequest)
    else
      var req := input.value;
      if SessionById(db, req.testSessionId).None? then Failure(NotFound)
      else if QuestionById(db, req.questionId).None? then Failure(NotFound)
      else if !OptionsExist(db, req.selectedOptions) then Failure(InternalError(ServerErrorMessage))
      else match TargetAnswer(db, req)
        case Some(k) =>
          var row := db.answers[k];
          Success(db.(answers := db.answers[k := row.(selected := Connect(row.selected, req.selectedOptions))]))
        case None =>
          var row := AnswerRow(db.nextId, req.questionId, req.testSessionId,
                               Connect([], req.selectedOptions), None, None);
          var answers := db.answers + [row];
          assert answers[..|db.answers|] == db.answers;
          Success(db.(answers := answers, nextId := db.nextId + 1))
  }

  /** Re-sending an answer to an existing row changes nothing more. */
  lemma AnswerAgainIsIdempotent(db: Db, req: AnswerRequest)
    requires AnswerQuestion(db, Some(req)).Success?
    requires TargetAnswer(db, req).Some?
    ensures var db' := AnswerQuestion(db, Some(req)).value;
      AnswerQuestion(db', Some(req)) == Success(db')
  {
    var k := TargetAnswer(db, req).value;
    var db' := AnswerQuestion(db, Some(req)).value;
    ConnectIdempotent(db.answers[k].selected, req.selectedOptions);
    assert SessionById(db', req.testSessionId) == SessionById(db, req.testSessionId);
    assert QuestionById(db', req.questionId) == QuestionById(db, req.questionId);
    assert OptionsExist(db', req.selectedOptions);
    IndexWhereSameKeys(db.answers, db'.answers, (a: AnswerRow) => a.id == req.answerId.GetOr(-1));
    assert db'.answers[k := db'.answers[k]] == db'.answers;
  }

  /** Sending an answer without an answer id twice creates two answer rows for
      the same question and session. */
  lemma AnswerWithoutIdTwiceMakesTwoRows(db: Db, req: AnswerRequest)
    requires AnswerQuestion(db, Some(req)).Success?
    requires req.answerId.None?
    requires IdsBelowNext(db)
    ensures var db1 := AnswerQuestion(db, Some(req)).value;
      var r2 := AnswerQuestion(db1, Some(req));
      && r2.Success?
      && |r2.value.answers| == |db.answers| + 2
      && r2.value.answers[|db.answers|].questionId == r2.value.answers[|db.answers| + 1].questionId
      && r2.value.answers[|db.answers|].sessionId == r2.value.answers[|db.answers| + 1].sessionId
  {
    var db1 := AnswerQuestion(db, Some(req)).value;
    assert TargetAnswer(db, req).None?;
    assert db1.sessions == db.sessions && db1.questions == db.questions && db1.options == db.options;
    assert forall k :: 0 <= k < |db1.answers| ==> db1.answers[k].id > 0 by {
      forall k | 0 <= k < |db1.answers| ensures db1.answers[k].id > 0 {
        if k < |db.answers| {
          assert db1.answers[k] == db1.answers[..|db.answers|][k];
        }
      }
    }
    assert TargetAnswer(db1, req).None?;
  }

  /** Two rows whose keys agree pointwise are searched alike. */
  lemma {:induction false} IndexWhereSameKeys<T>(rows: seq<T>, rows': seq<T>, p: T -> bool)
    requires |rows| == |rows'|
    requires forall k :: 0 <= k < |rows| ==> p(rows[k]) == p(rows'[k])
    ensures IndexWhere(rows, p) == IndexWhere(rows', p)
    decreases |rows|
  {
    if |rows| > 0 {
      IndexWhereSameKeys(rows[1..], rows'[1..], p);
    }
  }

  // ---------------------------------------------------------------------
  // Sending the session in
  // ---------------------------------------------------------------------

  /** The questions of a test as the scoring loop reads them. */
  function TestQuestions(db: Db, testId: int): seq<Question> {
    QuestionsOf(db.options, db.questions, testId)
  }

  /** Every question of the test can be scored: the scoring loop divides by
      the number of correct options only for the questions of the session's
      own test. */
  predicate TestScorable(db: Db, testId: int) {
    Aggregation.AllScorable(TestQuestions(db, testId))
  }

  /** The session with the uuid, if any, belongs to a test that can be scored. */
  predicate SessionScorable(db: Db, uuid: string) {
    match SessionByUuid(db, uuid)
    case None => true
    case Some(i) => TestScorable(db, db.sessions[i].testId)
  }

  /** A session can be sent in without dividing by zero exactly when every
      MULTIPLE question row of its test has a correct option row. */
  lemma SessionScorableIffRows(db: Db, uuid: string)
    requires SessionByUuid(db, uuid).Some?
    ensures SessionScorable(db, uuid) <==>
      TestHasCorrect(db.options, db.questions, db.sessions[SessionByUuid(db, uuid).value].testId)
  {
    ScorableIffCorrectRows(db.options, db.questions, db.sessions[SessionByUuid(db, uuid).value].testId);
  }

  /** The answers of a session as the scoring loop reads them. */
  function SessionAnswers(db: Db, sessionId: int): seq<Aggregation.Answer> {
    AnswersOf(db.options, db.answers, sessionId)
  }

  /** Writing one answer's score and status onto the row with its id. */
  function WriteGrade(a: AnswerRow, g: Aggregation.Graded): AnswerRow {
    if a.id == g.answerId then a.(score := Some(g.score), status := Some(g.status)) else a
  }

  /** The answer ids that receive an update. */
  function GradedIds(graded: seq<Aggregation.Graded>): set<int> {
    set j | 0 <= j < |graded| :: graded[j].answerId
  }

  /** Writing the updates one after the other onto the answer table: only the
      rows named by an update change, and only in score and status; a named
      row ends with the status of an update that names it. */
  function ApplyGrades(rows: seq<AnswerRow>, graded: seq<Aggregation.Graded>): (r: seq<AnswerRow>)
    ensures |r| == |rows|
    ensures forall k :: 0 <= k < |rows| ==>
      r[k] == rows[k].(score := r[k].score, status := r[k].status)
    ensures forall k :: 0 <= k < |rows| && rows[k].id !in GradedIds(graded) ==> r[k] == rows[k]
    ensures forall k :: 0 <= k < |rows| && rows[k].id in GradedIds(graded) ==>
      exists j :: 0 <= j < |graded| && graded[j].answerId == rows[k].id
        && r[k].score == Some(graded[j].score) && r[k].status == Some(graded[j].status)
    decreases |graded|
  {
    if |graded| == 0 then rows
    else
      var init := graded[..|graded| - 1];
      var g := graded[|graded| - 1];
      var prev := ApplyGrades(rows, init);
      assert GradedIds(graded) == GradedIds(init) + {g.answerId} by {
        assert forall j :: 0 <= j < |init| ==> graded[j] == init[j];
      }
      seq(|prev|, k requires 0 <= k < |prev| => WriteGrade(prev[k], g))
  }

  /** The new state of the session with index `i` and its result row, as
      `sendResponseTest` computes them once the session is found. */
  function Finalize(db: Db, i: nat, now: int): (r: (Db, ResultRow))
    requires i < |db.sessions| && TestScorable(db, db.sessions[i].testId)
    ensures var (db', res) := r;
      var s := db.sessions[i];
      && db' == db.(sessions := db'.sessions, answers := db'.answers, results := db'.results, nextId := db.nextId + 1)
      && db'.sessions == db.sessions[i := s.(status := Finished, endedAt := Some(now))]
      && db'.results == db.results + [res]
      && res.id == db.nextId && res.sessionId == s.id && res.userId == s.userId
      && (var summary := Aggregation.Summarize(TestQuestions(db, s.testId), SessionAnswers(db, s.id));
          && res.countCorrect == summary.countCorrect && res.countWrong == summary.countWrong
          && res.countAlmostCorrect == summary.countAlmostCorrect
          && res.countSkipped == summary.countSkipped && res.score == summary.totalScore)
      && db'.answers == ApplyGrades(db.answers,
           Aggregation.Aggregate(TestQuestions(db, s.testId), SessionAnswers(db, s.id)).graded)
      && |db'.answers| == |db.answers|
      && (forall k :: 0 <= k < |db.answers| ==>
            db'.answers[k] == db.answers[k].(score := db'.answers[k].score, status := db'.answers[k].status))
      && (forall k :: 0 <= k < |db.answers| && db'.answers[k] != db.answers[k] ==>
            db'.answers[k].status.Some? && db'.answers[k].status.value != Skipped)
  {
    var s := db.sessions[i];
    var questions := TestQuestions(db, s.testId);
    var answers := SessionAnswers(db, s.id);
    var grading := Aggregation.Aggregate(questions, answers);
    var summary := Aggregation.Summarize(questions, answers);
    var rows := ApplyGrades(db.answers, grading.graded);
    var res := ResultRow(db.nextId, s.id, summary.countCorrect, summary.countWrong,
                         summary.countAlmostCorrect, summary.countSkipped, summary.totalScore, s.userId);
    (db.(sessions := db.sessions[i := s.(status := Finished, endedAt := Some(now))],
         answers := rows, results := db.results + [res], nextId := db.nextId + 1),
     res)
  }

  /** `sendResponseTest`: the session with the uuid is marked FINISHED at
      `now`, each of its answers that refers to a question of the test is
      scored and updated, and one new result row records the counts, the
      total and the session's user. A session that is already FINISHED is
      processed all the same. */
  function SendResponseTest(db: Db, uuid: string, now: int): (r: Result<(Db, ResultRow), Error>)
    requires SessionScorable(db, uuid)
    ensures uuid == "" ==> r == Failure(NotFound)
    ensures uuid != "" && SessionByUuid(db, uuid).None? ==> r == Failure(InternalError("Session not found"))
    ensures uuid != "" && SessionByUuid(db, uuid).Some? ==>
      && r.Success?
      && var i := SessionByUuid(db, uuid).value;
         r.value == Finalize(db, i, now)
         && db.sessions[i].uuid == uuid
         && r.value.0.sessions[i].status == Finished
  {
    if uuid == "" then Failure(NotFound)
    else match SessionByUuid(db, uuid)
      case None => Failure(InternalError("Session not found"))
      case Some(i) => Success(Finalize(db, i, now))
  }

  /** Nothing stops a second send: sending a session in twice creates two
      result rows for it. */
  lemma SendTwiceMakesTwoResults(db: Db, uuid: string, now: int, later: int)
    requires SessionScorable(db, uuid) && uuid != "" && SessionByUuid(db, uuid).Some?
    ensures var r1 := SendResponseTest(db, uuid, now);
      && r1.Success?
      && SessionScorable(r1.value.0, uuid)
      && var r2 := SendResponseTest(r1.value.0, uuid, later);
         && r2.Success?
         && |r2.value.0.results| == |db.results| + 2
         && r2.value.0.results[|db.results|].sessionId == r2.value.0.results[|db.results| + 1].sessionId
         && r2.value.0.sessions[SessionByUuid(db, uuid).value].status == Finished
  {
    var i := SessionByUuid(db, uuid).value;
    var db1 := SendResponseTest(db, uuid, now).value.0;
    IndexWhereSameKeys(db.sessions, db1.sessions, (s: SessionRow) => s.uuid == uuid);
  }

  /** When every answer row of the session refers to a question row of its
      test and there are no more answer rows than question rows, the four
      counts of the new result add up to the number of question rows. */
  lemma ResultCountsCoverQuestions(db: Db, uuid: string, now: int)
    requires SessionScorable(db, uuid) && uuid != "" && SessionByUuid(db, uuid).Some?
    requires var s := db.sessions[SessionByUuid(db, uuid).value];
      && (forall k :: 0 <= k < |db.answers| && db.answers[k].sessionId == s.id ==>
            exists j :: 0 <= j < |db.questions| && db.questions[j].testId == s.testId
              && db.questions[j].id == db.answers[k].questionId)
      && |RowsOfSession(db.answers, s.id)| <= |RowsOfTest(db.questions, s.testId)|
    ensures var res := SendResponseTest(db, uuid, now).value.1;
      var s := db.sessions[SessionByUuid(db, uuid).value];
      res.countCorrect + res.countWrong + res.countAlmostCorrect + res.countSkipped
        == |RowsOfTest(db.questions, s.testId)|
  {
    var s := db.sessions[SessionByUuid(db, uuid).value];
    var qs := TestQuestions(db, s.testId);
    var ans := SessionAnswers(db, s.id);
    QuestionsOfCount(db.options, db.questions, s.testId);
    AnswersOfCount(db.options, db.answers, s.id);
    forall i | 0 <= i < |ans| ensures Aggregation.Matches(qs, ans[i]) {
      assert ans[i] in ans;
      var k :| 0 <= k < |db.answers| && db.answers[k].sessionId == s.id && ans[i] == ToAnswer(db.options, db.answers[k]);
      var j :| 0 <= j < |db.questions| && db.questions[j].testId == s.testId
        && db.questions[j].id == db.answers[k].questionId;
      assert ToQuestion(db.options, db.questions[j]) in qs;
    }
    Aggregation.CountsCoverQuestions(qs, ans);
  }

  /** With unique answer ids, sending a session in writes its grade on every
      answer row of the session whose question belongs to the test, and on no
      other row. */
  lemma FinalizeGradesSessionAnswers(db: Db, i: nat, now: int, k: nat)
    requires i < |db.sessions| && TestScorable(db, db.sessions[i].testId)
    requires forall a, b :: 0 <= a < b < |db.answers| ==> db.answers[a].id != db.answers[b].id
    requires k < |db.answers|
    ensures var s := db.sessions[i];
      var qs := TestQuestions(db, s.testId);
      var a := ToAnswer(db.options, db.answers[k]);
      var row' := Finalize(db, i, now).0.answers[k];
      if db.answers[k].sessionId == s.id && Aggregation.Matches(qs, a) then
        var g := Aggregation.GradeOf(qs, a);
        row' == db.answers[k].(score := Some(g.score), status := Some(g.status))
      else row' == db.answers[k]
  {
    var s := db.sessions[i];
    GradesLandOnOwnRows(db.options, db.answers, TestQuestions(db, s.testId), s.id, k);
  }

  /** Writing the session's updates onto the answer table changes exactly the
      rows of the session whose question is in the test, each to its grade. */
  lemma GradesLandOnOwnRows(options: seq<OptionRow>, rows: seq<AnswerRow>, qs: seq<Question>, sid: int, k: nat)
    requires Aggregation.AllScorable(qs)
    requires forall a, b :: 0 <= a < b < |rows| ==> rows[a].id != rows[b].id
    requires k < |rows|
    ensures var a := ToAnswer(options, rows[k]);
      var row' := ApplyGrades(rows, Aggregation.Aggregate(qs, AnswersOf(options, rows, sid)).graded)[k];
      if rows[k].sessionId == sid && Aggregation.Matches(qs, a) then
        var g := Aggregation.GradeOf(qs, a);
        row' == rows[k].(score := Some(g.score), status := Some(g.status))
      else row' == rows[k]
  {
    var ans := AnswersOf(options, rows, sid);
    var m := Aggregation.MatchedAnswers(qs, ans);
    var graded := Aggregation.Aggregate(qs, ans).graded;
    var r := ApplyGrades(rows, graded);
    var a := ToAnswer(options, rows[k]);
    if rows[k].sessionId == sid && Aggregation.Matches(qs, a) {
      assert a in ans;
      assert a in m;
      var j :| 0 <= j < |m| && m[j] == a;
      assert graded[j] == Aggregation.GradeOf(qs, a);
      assert rows[k].id in GradedIds(graded);
      var j' :| 0 <= j' < |graded| && graded[j'].answerId == rows[k].id
        && r[k].score == Some(graded[j'].score) && r[k].status == Some(graded[j'].status);
      UpdateNamesItsRow(options, rows, qs, sid, k, j');
    } else if rows[k].id in GradedIds(graded) {
      var j :| 0 <= j < |graded| && graded[j].answerId == rows[k].id;
      UpdateNamesItsRow(options, rows, qs, sid, k, j);
      assert false;
    }
  }

  /** An update that names an answer row's id is that row's grade, and the row
      belongs to the session and to a question of the test. */
  lemma UpdateNamesItsRow(options: seq<OptionRow>, rows: seq<AnswerRow>, qs: seq<Question>, sid: int, k: nat, j: nat)
    requires Aggregation.AllScorable(qs)
    requires forall a, b :: 0 <= a < b < |rows| ==> rows[a].id != rows[b].id
    requires k < |rows|
    requires j < |Aggregation.Aggregate(qs, AnswersOf(options, rows, sid)).graded|
    requires Aggregation.Aggregate(qs, AnswersOf(options, rows, sid)).graded[j].answerId == rows[k].id
    ensures var a := ToAnswer(options, rows[k]);
      && rows[k].sessionId == sid && Aggregation.Matches(qs, a)
      && Aggregation.Aggregate(qs, AnswersOf(options, rows, sid)).graded[j] == Aggregation.GradeOf(qs, a)
  {
    var ans := AnswersOf(options, rows, sid);
    var m := Aggregation.MatchedAnswers(qs, ans);
    var graded := Aggregation.Aggregate(qs, ans).graded;
    assert Aggregation.Matches(qs, m[j]) && graded[j] == Aggregation.GradeOf(qs, m[j]);
    assert m[j] in ans by {
      assert m[j] in m;
    }
    var k' :| 0 <= k' < |rows| && rows[k'].sessionId == sid && m[j] == ToAnswer(options, rows[k']);
    assert rows[k'].id == rows[k].id;
    assert k' == k;
  }

  /** Joining keeps every id positive, unique and below the counter. */
  lemma JoinKeepsKeys(db: Db, code: string, input: Option<JoinInput>, userId: Option<int>, uuid: string)
    requires WellKeyed(db)
    requires JoinTest(db, code, input, userId, uuid).Success?
    ensures WellKeyed(JoinTest(db, code, input, userId, uuid).value)
  {
    var db' := JoinTest(db, code, input, userId, uuid).value;
    var s := db'.sessions[|db.sessions|];
    assert db'.sessions == db.sessions + [s];
    NewSessionKeepsKeys(db, s);
  }

  /** A session appended under the counter keeps the keys. */
  lemma NewSessionKeepsKeys(db: Db, s: SessionRow)
    requires WellKeyed(db) && s.id == db.nextId
    ensures WellKeyed(db.(sessions := db.sessions + [s], nextId := db.nextId + 1))
  {
    var db' := db.(sessions := db.sessions + [s], nextId := db.nextId + 1);
    assert forall k :: 0 <= k < |db.sessions| ==> db'.sessions[k] == db.sessions[k];
  }

  /** Saving an answer keeps every id positive, unique and below the counter. */
  lemma AnswerKeepsKeys(db: Db, input: Option<AnswerRequest>)
    requires WellKeyed(db)
    requires AnswerQuestion(db, input).Success?
    ensures WellKeyed(AnswerQuestion(db, input).value)
  {
    var db' := AnswerQuestion(db, input).value;
    if TargetAnswer(db, input.value).None? {
      var a := db'.answers[|db.answers|];
      assert db'.answers == db.answers + [a];
      NewAnswerKeepsKeys(db, a);
    } else {
      SameAnswerIdsKeepKeys(db, db'.answers);
      assert db' == db.(answers := db'.answers);
    }
  }

  /** An answer appended under the counter keeps the keys. */
  lemma NewAnswerKeepsKeys(db: Db, a: AnswerRow)
    requires WellKeyed(db) && a.id == db.nextId
    ensures WellKeyed(db.(answers := db.answers + [a], nextId := db.nextId + 1))
  {
    var db' := db.(answers := db.answers + [a], nextId := db.nextId + 1);
    assert forall k :: 0 <= k < |db.answers| ==> db'.answers[k] == db.answers[k];
  }

  /** Answer rows rewritten in place, each keeping its id, keep the keys. */
  lemma SameAnswerIdsKeepKeys(db: Db, answers: seq<AnswerRow>)
    requires WellKeyed(db)
    requires |answers| == |db.answers|
    requires forall k :: 0 <= k < |answers| ==> answers[k].id == db.answers[k].id
    ensures WellKeyed(db.(answers := answers))
  {
  }

  /** Sending a session in keeps every id positive, unique and below the counter. */
  lemma SendKeepsKeys(db: Db, uuid: string, now: int)
    requires WellKeyed(db) && SessionScorable(db, uuid)
    requires SendResponseTest(db, uuid, now).Success?
    ensures WellKeyed(SendResponseTest(db, uuid, now).value.0)
  {
    SendKeepsSessionKeys(db, uuid, now);
    var r := SendResponseTest(db, uuid, now).value;
    var i := SessionByUuid(db, uuid).value;
    assert r == Finalize(db, i, now);
    assert |r.0.answers| == |db.answers|;
    assert forall k :: 0 <= k < |db.answers| ==> r.0.answers[k].id == db.answers[k].id;
    StampedRowKeepsKeys(db, r.0, r.1);
  }

  /** A store whose rows keep their ids, with one result appended under the
      counter, keeps every id positive, unique and below the counter. */
  lemma StampedRowKeepsKeys(db: Db, db': Db, res: ResultRow)
    requires WellKeyed(db)
    requires db'.tests == db.tests && db'.questions == db.questions && db'.options == db.options
    requires |db'.sessions| == |db.sessions|
    requires forall k :: 0 <= k < |db.sessions| ==> db'.sessions[k].id == db.sessions[k].id
    requires |db'.answers| == |db.answers|
    requires forall k :: 0 <= k < |db.answers| ==> db'.answers[k].id == db.answers[k].id
    requires db'.results == db.results + [res] && res.id == db.nextId && db'.nextId == db.nextId + 1
    ensures WellKeyed(db')
  {
    assert forall k :: 0 <= k < |db.results| ==> db'.results[k] == db.results[k];
  }

  // ---------------------------------------------------------------------
  // Reading a result
  // ---------------------------------------------------------------------

  /** The result row belongs to the session with the uuid. */
  predicate ResultOfSession(db: Db, res: ResultRow, uuid: string) {
    match SessionById(db, res.sessionId)
    case None => false
    case Some(k) => db.sessions[k].uuid == uuid
  }

  /** `getTestResult`: the first result row of the session with the uuid. */
  function GetTestResult(db: Db, uuid: string): (r: Result<ResultRow, Error>)
    ensures uuid == "" ==> r == Failure(NotFound)
    ensures uuid != "" ==>
      (r.Failure? <==> forall k :: 0 <= k < |db.results| ==> !ResultOfSession(db, db.results[k], uuid))
    ensures r.Success? ==>
      (exists k :: 0 <= k < |db.results| && db.results[k] == r.value
        && ResultOfSession(db, r.value, uuid)
        && forall j :: 0 <= j < k ==> !ResultOfSession(db, db.results[j], uuid))
    ensures r.Failure? ==> r.error == NotFound
  {
    if uuid == "" then Failure(NotFound)
    else match IndexWhere(db.results, (res: ResultRow) => ResultOfSession(db, res, uuid))
      case None => Failure(NotFound)
      case Some(k) => Success(db.results[k])
  }

  /** Two stores whose sessions agree in id and uuid tie a result to a
      session alike. */
  lemma SameSessionKeys(db: Db, db': Db, res: ResultRow, uuid: string)
    requires |db.sessions| == |db'.sessions|
    requires forall k :: 0 <= k < |db.sessions| ==>
      db'.sessions[k].id == db.sessions[k].id && db'.sessions[k].uuid == db.sessions[k].uuid
    ensures ResultOfSession(db', res, uuid) == ResultOfSession(db, res, uuid)
  {
    IndexWhereSameKeys(db.sessions, db'.sessions, (x: SessionRow) => x.id == res.sessionId);
  }

  /** Results appended after rows none of which belong to the session, onto
      a store whose sessions keep their ids and uuids: the first appended one
      that belongs to the session is read back. */
  lemma AppendedResultIsRead(db: Db, db': Db, added: seq<ResultRow>, uuid: string)
    requires uuid != "" && |added| > 0 && db'.results == db.results + added
    requires |db.sessions| == |db'.sessions|
    requires forall k :: 0 <= k < |db.sessions| ==>
      db'.sessions[k].id == db.sessions[k].id && db'.sessions[k].uuid == db.sessions[k].uuid
    requires forall k :: 0 <= k < |db.results| ==> !ResultOfSession(db, db.results[k], uuid)
    requires ResultOfSession(db, added[0], uuid)
    ensures GetTestResult(db', uuid) == Success(added[0])
  {
    forall k | 0 <= k <= |db.results|
      ensures ResultOfSession(db', db'.results[k], uuid) == ResultOfSession(db, db'.results[k], uuid)
    {
      SameSessionKeys(db, db', db'.results[k], uuid);
    }
    IndexWhereFirst(db'.results, (x: ResultRow) => ResultOfSession(db', x, uuid), |db.results|);
  }

  /** A send keeps every session's id and uuid and appends one result, which
      names the session sent in. */
  lemma SendKeepsSessionKeys(db: Db, uuid: string, now: int)
    requires SessionScorable(db, uuid) && uuid != "" && SessionByUuid(db, uuid).Some?
    ensures var r := SendResponseTest(db, uuid, now);
      && r.Success?
      && |r.value.0.sessions| == |db.sessions|
      && (forall k :: 0 <= k < |db.sessions| ==>
            r.value.0.sessions[k].id == db.sessions[k].id && r.value.0.sessions[k].uuid == db.sessions[k].uuid)
      && r.value.0.results == db.results + [r.value.1]
      && r.value.1.sessionId == db.sessions[SessionByUuid(db, uuid).value].id
      && r.value.1.id == db.nextId && r.value.0.nextId == db.nextId + 1
  {
  }

  /** Two results appended one after the other onto stores whose sessions
      keep their ids and uuids, the first naming the session and no earlier
      row doing so: the first is read back after either append. */
  lemma ReadBackAfterAppends(db: Db, db1: Db, db2: Db, res1: ResultRow, res2: ResultRow, uuid: string)
    requires uuid != ""
    requires db1.results == db.results + [res1] && db2.results == db1.results + [res2]
    requires |db1.sessions| == |db.sessions| && |db2.sessions| == |db.sessions|
    requires forall k :: 0 <= k < |db.sessions| ==>
      && db1.sessions[k].id == db.sessions[k].id && db1.sessions[k].uuid == db.sessions[k].uuid
      && db2.sessions[k].id == db.sessions[k].id && db2.sessions[k].uuid == db.sessions[k].uuid
    requires forall k :: 0 <= k < |db.results| ==> !ResultOfSession(db, db.results[k], uuid)
    requires ResultOfSession(db, res1, uuid)
    ensures GetTestResult(db1, uuid) == Success(res1)
    ensures GetTestResult(db2, uuid) == Success(res1)
  {
    AppendedResultIsRead(db, db1, [res1], uuid);
    assert db2.results == db.results + [res1, res2];
    AppendedResultIsRead(db, db2, [res1, res2], uuid);
  }

  /** With unique session ids, a result naming the session found by its uuid
      belongs to that uuid. */
  lemma ResultNamingSessionIsOwn(db: Db, res: ResultRow, uuid: string)
    requires SessionByUuid(db, uuid).Some?
    requires forall a, b :: 0 <= a < b < |db.sessions| ==> db.sessions[a].id != db.sessions[b].id
    requires res.sessionId == db.sessions[SessionByUuid(db, uuid).value].id
    ensures ResultOfSession(db, res, uuid)
  {
    var i := SessionByUuid(db, uuid).value;
    IndexWhereFirst(db.sessions, (x: SessionRow) => x.id == res.sessionId, i);
  }

  /** With unique session ids and no earlier result for the session, the
      result of a send can be read back; after a second send, the result read
      back is still the first one, not the latest. */
  lemma SendThenGetResult(db: Db, uuid: string, now: int, later: int)
    requires SessionScorable(db, uuid) && uuid != "" && SessionByUuid(db, uuid).Some?
    requires forall a, b :: 0 <= a < b < |db.sessions| ==> db.sessions[a].id != db.sessions[b].id
    requires forall k :: 0 <= k < |db.results| ==> !ResultOfSession(db, db.results[k], uuid)
    ensures var r1 := SendResponseTest(db, uuid, now);
      && r1.Success?
      && GetTestResult(r1.value.0, uuid) == Success(r1.value.1)
      && SessionScorable(r1.value.0, uuid)
      && var r2 := SendResponseTest(r1.value.0, uuid, later);
         && r2.Success?
         && r2.value.1 != r1.value.1
         && GetTestResult(r2.value.0, uuid) == Success(r1.value.1)
  {
    SendTwiceMakesTwoResults(db, uuid, now, later);
    SendKeepsSessionKeys(db, uuid, now);
    var r1 := SendResponseTest(db, uuid, now).value;
    IndexWhereSameKeys(db.sessions, r1.0.sessions, (x: SessionRow) => x.uuid == uuid);
    SendKeepsSessionKeys(r1.0, uuid, later);
    var r2 := SendResponseTest(r1.0, uuid, later).value;
    ResultNamingSessionIsOwn(db, r1.1, uuid);
    ReadBackAfterAppends(db, r1.0, r2.0, r1.1, r2.1, uuid);
  }
}

=== FILE: scoring.dfy ===
/** The per-answer scoring rules applied when a test session is sent in:
    how the options a respondent selected for one question turn into points,
    and how points turn into an answer status. */
module Scoring {
  import JsText

  datatype QuestionType = Single | Multiple | Text

  /** An option of a question as the store returns it (the source's `Option`
      row: id, text and the correctness flag). */
  datatype QuizOption = QuizOption(id: int, text: string, isCorrect: bool)

  /** A question with its options, in the order the store returns them.
      `score` is the most a respondent can earn on it. */
  datatype Question = Question(id: int, qtype: QuestionType, score: real, options: seq<QuizOption>)

  /** The statuses an answer row can carry. Scoring never assigns `Skipped`. */
  datatype AnswerStatus = Correct | AlmostCorrect | Incorrect | Skipped

  /** The options flagged correct, in order: `options.filter(o => o.isCorrect)`. */
  function CorrectOptions(options: seq<QuizOption>): (r: seq<QuizOption>)
    ensures |r| <= |options|
    ensures forall o :: o in r <==> o in options && o.isCorrect
  {
    if |options| == 0 then []
    else if options[0].isCorrect then [options[0]] + CorrectOptions(options[1..])
    else CorrectOptions(options[1..])
  }

  /** The filter keeps each correct option as often as it occurs and drops
      every other, so `correctOptions.length` counts the correct entries. */
  lemma {:induction false} CorrectOptionsCount(options: seq<QuizOption>)
    ensures forall o :: multiset(CorrectOptions(options))[o] == if o.isCorrect then multiset(options)[o] else 0
    decreases |options|
  {
    if |options| > 0 {
      CorrectOptionsCount(options[1..]);
      assert options == [options[0]] + options[1..];
    }
  }

  /** The ids of the correct options. */
  function CorrectIds(q: Question): set<int> {
    set o | o in CorrectOptions(q.options) :: o.id
  }

  /** A selected option counts as correct when a correct option of the
      question has its id (the lookup in `correctOptions` by id). */
  predicate SelectsCorrect(q: Question, o: QuizOption) {
    o.id in CorrectIds(q)
  }

  /** A selected option matches a TEXT question when its trimmed text equals
      the text of some option of the question, flagged correct or not. */
  predicate MatchesText(q: Question, o: QuizOption) {
    exists k :: 0 <= k < |q.options| && q.options[k].text == JsText.Trim(o.text)
  }

  /** A MULTIPLE question needs at least one correct option: its step is the
      score divided by the number of correct options. */
  predicate Scorable(q: Question) {
    q.qtype == Multiple ==> |CorrectOptions(q.options)| > 0
  }

  /** What one selection of a MULTIPLE question adds or takes away. */
  function Unit(q: Question): real
    requires Scorable(q) && q.qtype == Multiple
  {
    q.score / (|CorrectOptions(q.options)| as real)
  }

  /** `Math.max(0, x)`. */
  function Max0(x: real): real {
    if x > 0.0 then x else 0.0
  }

  /** The effect of one selected option on the running score `acc`. */
  function Step(q: Question, acc: real, o: QuizOption): real
    requires Scorable(q)
  {
    match q.qtype
    case Multiple => Max0(if SelectsCorrect(q, o) then acc + Unit(q) else acc - Unit(q))
    case Single => if SelectsCorrect(q, o) then q.score else acc
    case Text => if MatchesText(q, o) then q.score else acc
  }

  /** Some selected option is a correct one. */
  predicate AnySelectsCorrect(q: Question, sel: seq<QuizOption>) {
    exists i :: 0 <= i < |sel| && SelectsCorrect(q, sel[i])
  }

  /** Some selected option's trimmed text is the text of an option. */
  predicate AnyMatchesText(q: Question, sel: seq<QuizOption>) {
    exists i :: 0 <= i < |sel| && MatchesText(q, sel[i])
  }

  /** The running score after the selections `sel`, in order, starting from `acc`. */
  function ScoreFrom(q: Question, acc: real, sel: seq<QuizOption>): (r: real)
    requires Scorable(q)
    ensures q.qtype == Single ==> r == (if AnySelectsCorrect(q, sel) then q.score else acc)
    ensures q.qtype == Text ==> r == (if AnyMatchesText(q, sel) then q.score else acc)
    ensures q.qtype == Multiple && acc >= 0.0 ==> r >= 0.0
    decreases |sel|
  {
    if |sel| == 0 then acc
    else
      AnyFirstOrRest(q, sel);
      ScoreFrom(q, Step(q, acc, sel[0]), sel[1..])
  }

  /** Some selection qualifies iff the first does or one of the rest does. */
  lemma AnyFirstOrRest(q: Question, sel: seq<QuizOption>)
    requires |sel| > 0
    ensures AnySelectsCorrect(q, sel) <==> SelectsCorrect(q, sel[0]) || AnySelectsCorrect(q, sel[1..])
    ensures AnyMatchesText(q, sel) <==> MatchesText(q, sel[0]) || AnyMatchesText(q, sel[1..])
  {
    var rest := sel[1..];
    assert forall i :: 0 <= i < |rest| ==> rest[i] == sel[i + 1];
    if AnySelectsCorrect(q, sel) && !SelectsCorrect(q, sel[0]) {
      var i :| 0 <= i < |sel| && SelectsCorrect(q, sel[i]);
      assert rest[i - 1] == sel[i];
    }
    if AnyMatchesText(q, sel) && !MatchesText(q, sel[0]) {
      var i :| 0 <= i < |sel| && MatchesText(q, sel[i]);
      assert rest[i - 1] == sel[i];
    }
  }

  /** The points an answer earns: the running score starts at 0 and every
      selected option, in order, updates it by the rule of the question type. */
  function Score(q: Question, sel: seq<QuizOption>): (r: real)
    requires Scorable(q)
    ensures q.qtype == Single ==> r == (if AnySelectsCorrect(q, sel) then q.score else 0.0)
    ensures q.qtype == Text ==> r == (if AnyMatchesText(q, sel) then q.score else 0.0)
    ensures q.qtype == Multiple ==> r >= 0.0
    ensures |sel| == 0 ==> r == 0.0
  {
    ScoreFrom(q, 0.0, sel)
  }

  /** The status an answer row receives for `score` points on a question
      worth `max`. */
  function Classify(score: real, max: real): (st: AnswerStatus)
    ensures st != Skipped
    ensures st == Correct <==> score == max
    ensures st == AlmostCorrect <==> score != max && score > 0.0
    ensures st == Incorrect <==> score != max && score <= 0.0
  {
    if score == max then Correct
    else if score > 0.0 then AlmostCorrect
    else Incorrect
  }

  /** The status of an answer to `q` that selected `sel`. */
  function Status(q: Question, sel: seq<QuizOption>): AnswerStatus
    requires Scorable(q)
  {
    Classify(Score(q, sel), q.score)
  }

  // ---------------------------------------------------------------------
  // SINGLE and TEXT: all or nothing
  // ---------------------------------------------------------------------

  /** SINGLE and TEXT answers earn either nothing or the full score, and so are
      never ALMOST_CORRECT, whatever the question's score. */
  lemma AllOrNothing(q: Question, sel: seq<QuizOption>)
    requires Scorable(q) && q.qtype != Multiple
    ensures Score(q, sel) == 0.0 || Score(q, sel) == q.score
    ensures Status(q, sel) == Correct || Status(q, sel) == Incorrect
  {
  }

  /** An answer with no selected options earns 0, so it is INCORRECT unless the
      question is worth exactly 0; it is never SKIPPED. */
  lemma EmptyAnswerStatus(q: Question)
    requires Scorable(q)
    ensures Status(q, []) == (if q.score == 0.0 then Correct else Incorrect)
  {
  }

  /** A TEXT question's correctness flags play no part: two TEXT questions
      whose options carry the same texts score every selection alike. */
  lemma {:induction false} TextIgnoresCorrectness(q: Question, q': Question, acc: real, sel: seq<QuizOption>)
    requires q.qtype == Text && q'.qtype == Text && q.score == q'.score
    requires |q.options| == |q'.options|
    requires forall k :: 0 <= k < |q.options| ==> q.options[k].text == q'.options[k].text
    ensures ScoreFrom(q, acc, sel) == ScoreFrom(q', acc, sel)
    decreases |sel|
  {
    if |sel| > 0 {
      assert MatchesText(q, sel[0]) <==> MatchesText(q', sel[0]) by {
        if MatchesText(q, sel[0]) {
          var k :| 0 <= k < |q.options| && q.options[k].text == JsText.Trim(sel[0].text);
          assert q'.options[k].text == JsText.Trim(sel[0].text);
        }
        if MatchesText(q', sel[0]) {
          var k :| 0 <= k < |q'.options| && q'.options[k].text == JsText.Trim(sel[0].text);
          assert q.options[k].text == JsText.Trim(sel[0].text);
        }
      }
      TextIgnoresCorrectness(q, q', Step(q, acc, sel[0]), sel[1..]);
    }
  }

  // ---------------------------------------------------------------------
  // MULTIPLE: partial credit with a floor of 0 after every step
  // ---------------------------------------------------------------------

  /** How many of the selections are correct ones (with repetitions). */
  function CountSelectsCorrect(q: Question, sel: seq<QuizOption>): nat
    decreases |sel|
  {
    if |sel| == 0 then 0
    else (if SelectsCorrect(q, sel[0]) then 1 else 0) + CountSelectsCorrect(q, sel[1..])
  }

  /** No option is selected twice. */
  predicate DistinctIds(sel: seq<QuizOption>) {
    forall i, j :: 0 <= i < j < |sel| ==> sel[i].id != sel[j].id
  }

  /** The ids of the selected options that are correct. */
  function SelectedCorrectIds(q: Question, sel: seq<QuizOption>): set<int> {
    set o | o in sel && SelectsCorrect(q, o) :: o.id
  }

  /** A MULTIPLE step is worth a non-negative amount when the score is. */
  lemma UnitNonNegative(q: Question)
    requires Scorable(q) && q.qtype == Multiple && q.score >= 0.0
    ensures Unit(q) >= 0.0
  {
  }

  /** The running score never drops below 0 and never exceeds the start plus
      one step per correct selection. */
  lemma {:induction false} MultipleFromBounds(q: Question, acc: real, sel: seq<QuizOption>)
    requires Scorable(q) && q.qtype == Multiple && q.score >= 0.0 && acc >= 0.0
    ensures 0.0 <= ScoreFrom(q, acc, sel) <= acc + Repeat(CountSelectsCorrect(q, sel), Unit(q))
    decreases |sel|
  {
    if |sel| > 0 {
      var u := Unit(q);
      UnitNonNegative(q);
      var n := CountSelectsCorrect(q, sel[1..]);
      var acc' := Step(q, acc, sel[0]);
      MultipleFromBounds(q, acc', sel[1..]);
      if SelectsCorrect(q, sel[0]) {
        assert acc' == acc + u;
        RepeatFront(n, u);
      } else {
        assert acc' <= acc;
      }
    }
  }

  /** With distinct selections, at most as many correct selections as there
      are correct option ids. */
  lemma {:induction false} DistinctCorrectSelections(q: Question, sel: seq<QuizOption>)
    requires DistinctIds(sel)
    ensures CountSelectsCorrect(q, sel) == |SelectedCorrectIds(q, sel)|
    ensures SelectedCorrectIds(q, sel) <= CorrectIds(q)
    decreases |sel|
  {
    if |sel| > 0 {
      DistinctCorrectSelections(q, sel[1..]);
      var rest := SelectedCorrectIds(q, sel[1..]);
      assert forall o :: o in sel[1..] ==> o.id != sel[0].id;
      if SelectsCorrect(q, sel[0]) {
        assert SelectedCorrectIds(q, sel) == {sel[0].id} + rest;
      } else {
        assert SelectedCorrectIds(q, sel) == rest;
      }
    }
  }

  /** There are no more distinct correct ids than correct options. */
  lemma {:induction false} IdsAtMostOptions(options: seq<QuizOption>)
    ensures |set o | o in options :: o.id| <= |options|
  {
    if |options| > 0 {
      IdsAtMostOptions(options[1..]);
      var ids := set o | o in options :: o.id;
      var rest := set o | o in options[1..] :: o.id;
      assert ids == {options[0].id} + rest;
    }
  }

  /** A subset is no larger than its superset. */
  lemma SubsetCard(a: set<int>, b: set<int>)
    requires a <= b
    ensures |a| <= |b|
  {
    assert b == a + (b - a);
  }

  /** MULTIPLE bounds: with a non-negative score and no option selected twice,
      the points lie in [0, score]. */
  lemma MultipleBounds(q: Question, sel: seq<QuizOption>)
    requires Scorable(q) && q.qtype == Multiple && q.score >= 0.0
    requires DistinctIds(sel)
    ensures 0.0 <= Score(q, sel) <= q.score
  {
    var k := |CorrectOptions(q.options)|;
    var c := CountSelectsCorrect(q, sel);
    MultipleFromBounds(q, 0.0, sel);
    assert Score(q, sel) <= Repeat(c, Unit(q));
    DistinctCorrectSelections(q, sel);
    IdsAtMostOptions(CorrectOptions(q.options));
    SubsetCard(SelectedCorrectIds(q, sel), CorrectIds(q));
    assert c <= k;
    UnitTimesCount(q, c);
  }

  /** `c` steps of a MULTIPLE question, `c` at most the number of correct
      options, add up to at most its score. */
  lemma UnitTimesCount(q: Question, c: nat)
    requires Scorable(q) && q.qtype == Multiple && q.score >= 0.0
    requires c <= |CorrectOptions(q.options)|
    ensures Repeat(c, Unit(q)) <= q.score
  {
    UnitNonNegative(q);
    RepeatMonotone(c, |CorrectOptions(q.options)|, Unit(q));
    StepsMakeScore(q);
  }

  /** More steps of a non-negative amount add up to more. */
  lemma {:induction false} RepeatMonotone(m: nat, n: nat, u: real)
    requires m <= n && u >= 0.0
    ensures Repeat(m, u) <= Repeat(n, u)
    decreases n
  {
    if m < n {
      RepeatMonotone(m, n - 1, u);
    }
  }

  /** `n` steps of `u` points, added one after the other. */
  function Repeat(n: nat, u: real): real {
    if n == 0 then 0.0 else Repeat(n - 1, u) + u
  }

  /** `n` steps of `u` points add up to `n * u`. */
  lemma {:induction false} RepeatIsProduct(n: nat, u: real)
    ensures Repeat(n, u) == (n as real) * u
  {
    if n > 0 {
      RepeatIsProduct(n - 1, u);
    }
  }

  /** Selecting only correct options adds one step per selection. */
  lemma {:induction false} AllCorrectFrom(q: Question, acc: real, sel: seq<QuizOption>)
    requires Scorable(q) && q.qtype == Multiple && q.score >= 0.0 && acc >= 0.0
    requires forall i :: 0 <= i < |sel| ==> SelectsCorrect(q, sel[i])
    ensures ScoreFrom(q, acc, sel) == acc + Repeat(|sel|, Unit(q))
    decreases |sel|
  {
    if |sel| > 0 {
      var u := Unit(q);
      AllCorrectFrom(q, acc + u, sel[1..]);
      RepeatFront(|sel| - 1, u);
    }
  }

  /** A step taken first is a step all the same. */
  lemma {:induction false} RepeatFront(n: nat, u: real)
    ensures u + Repeat(n, u) == Repeat(n + 1, u)
  {
  }

  /** As many steps as the question has correct options add up to its score. */
  lemma StepsMakeScore(q: Question)
    requires Scorable(q) && q.qtype == Multiple
    ensures Repeat(|CorrectOptions(q.options)|, Unit(q)) == q.score
  {
    RepeatIsProduct(|CorrectOptions(q.options)|, Unit(q));
  }

  /** Selecting exactly as many correct options as the question has, and
      nothing else, makes a MULTIPLE answer CORRECT. */
  lemma MultipleFullMarks(q: Question, sel: seq<QuizOption>)
    requires Scorable(q) && q.qtype == Multiple && q.score >= 0.0
    requires forall i :: 0 <= i < |sel| ==> SelectsCorrect(q, sel[i])
    requires |sel| == |CorrectOptions(q.options)|
    ensures Score(q, sel) == q.score
    ensures Status(q, sel) == Correct
  {
    AllCorrectFrom(q, 0.0, sel);
    StepsMakeScore(q);
  }

  /** MULTIPLE scoring depends on the order of the selections: a wrong option
      selected first costs nothing, selected after a right one it cancels it. */
  lemma MultipleOrderSensitive(q: Question, right: QuizOption, wrong: QuizOption)
    requires Scorable(q) && q.qtype == Multiple && q.score >= 0.0
    requires SelectsCorrect(q, right) && !SelectsCorrect(q, wrong)
    ensures Score(q, [wrong, right]) == Unit(q)
    ensures Score(q, [right, wrong]) == 0.0
  {
    var u := Unit(q);
    assert u >= 0.0;
    assert Step(q, 0.0, wrong) == 0.0;
    assert Step(q, 0.0, right) == u;
    assert Step(q, u, wrong) == 0.0;
    assert [wrong, right][1..] == [right];
    assert [right, wrong][1..] == [wrong];
    assert ScoreFrom(q, 0.0, [right]) == ScoreFrom(q, u, []);
    assert ScoreFrom(q, u, [wrong]) == ScoreFrom(q, 0.0, []);
  }

  /** A wrong option selected first is free: the floor absorbs it. */
  lemma WrongFirstIsFree(q: Question, wrong: QuizOption, sel: seq<QuizOption>)
    requires Scorable(q) && q.qtype == Multiple && q.score >= 0.0
    requires !SelectsCorrect(q, wrong)
    ensures Score(q, [wrong] + sel) == Score(q, sel)
  {
    assert ([wrong] + sel)[1..] == sel;
  }
}

=== FILE: seed_examples.dfy ===
/** Worked scoring examples on the questions of the seeded arithmetic test.
    The store assigns ids; the ones used here are arbitrary but distinct. */
module SeedExamples {
  import opened Scoring
  import JsText

  /** "2 + 2": SINGLE, worth 1, options 3, 4 (correct) and 5. */
  const TwoPlusTwo := Question(1, Single, 1.0,
    [QuizOption(11, "3", false), QuizOption(12, "4", true), QuizOption(13, "5", false)])

  /** "3 × 4": MULTIPLE, worth 2, three of its four options correct. */
  const ThreeTimesFour := Question(2, Multiple, 2.0,
    [QuizOption(21, "12", true), QuizOption(22, "7", false),
     QuizOption(23, "3 + 3 + 3 + 3", true), QuizOption(24, "4 + 4 + 4", true)])

  lemma TwoPlusTwoScores()
    ensures Score(TwoPlusTwo, [TwoPlusTwo.options[1]]) == 1.0
    ensures Status(TwoPlusTwo, [TwoPlusTwo.options[1]]) == Correct
    ensures Score(TwoPlusTwo, [TwoPlusTwo.options[0]]) == 0.0
    ensures Status(TwoPlusTwo, [TwoPlusTwo.options[0]]) == Incorrect
    ensures Status(TwoPlusTwo, []) == Incorrect
  {
    assert CorrectOptions(TwoPlusTwo.options) == [TwoPlusTwo.options[1]];
    assert CorrectIds(TwoPlusTwo) == {12};
    assert SelectsCorrect(TwoPlusTwo, TwoPlusTwo.options[1]);
  }

  lemma ThreeTimesFourScores()
    ensures Score(ThreeTimesFour, [ThreeTimesFour.options[0], ThreeTimesFour.options[2], ThreeTimesFour.options[3]]) == 2.0
    ensures Status(ThreeTimesFour, [ThreeTimesFour.options[0], ThreeTimesFour.options[2], ThreeTimesFour.options[3]]) == Correct
    ensures Score(ThreeTimesFour, [ThreeTimesFour.options[0], ThreeTimesFour.options[2]]) == 4.0 / 3.0
    ensures Status(ThreeTimesFour, [ThreeTimesFour.options[0], ThreeTimesFour.options[2]]) == AlmostCorrect
    ensures Score(ThreeTimesFour, [ThreeTimesFour.options[0], ThreeTimesFour.options[1]]) == 0.0
    ensures Status(ThreeTimesFour, [ThreeTimesFour.options[0], ThreeTimesFour.options[1]]) == Incorrect
    ensures Score(ThreeTimesFour, [ThreeTimesFour.options[1], ThreeTimesFour.options[0]]) == 2.0 / 3.0
    ensures Status(ThreeTimesFour, [ThreeTimesFour.options[1], ThreeTimesFour.options[0]]) == AlmostCorrect
  {
    var q := ThreeTimesFour;
    var o := q.options;
    assert CorrectOptions(o) == [o[0], o[2], o[3]];
    assert CorrectIds(q) == {21, 23, 24};
    assert Unit(q) == 2.0 / 3.0;
    assert SelectsCorrect(q, o[0]) && !SelectsCorrect(q, o[1]);
    assert SelectsCorrect(q, o[2]) && SelectsCorrect(q, o[3]);
    MultipleFullMarks(q, [o[0], o[2], o[3]]);
    assert ScoreFrom(q, 0.0, [o[0], o[2]]) == ScoreFrom(q, 2.0 / 3.0, [o[2]]);
    assert ScoreFrom(q, 2.0 / 3.0, [o[2]]) == ScoreFrom(q, 4.0 / 3.0, []);
    MultipleOrderSensitive(q, o[0], o[1]);
  }

  /** TEXT matching trims but keeps case: with "Paris" as the only accepted
      text, "  Paris " earns the full score and "  paris " earns nothing. */
  lemma CapitalScores(q: Question, id: int, flag: bool)
    requires q.qtype == Text && |q.options| > 0
    requires forall k :: 0 <= k < |q.options| ==> q.options[k].text == "Paris"
    ensures Score(q, [QuizOption(id, "  Paris ", flag)]) == q.score
    ensures Score(q, [QuizOption(id, "  paris ", flag)]) == 0.0
  {
    JsText.TrimKeepsCase();
    var right := QuizOption(id, "  Paris ", flag);
    var wrong := QuizOption(id, "  paris ", flag);
    assert MatchesText(q, right) by {
      assert q.options[0].text == JsText.Trim(right.text);
    }
    assert !MatchesText(q, wrong);
    AnyFirstOrRest(q, [right]);
    AnyFirstOrRest(q, [wrong]);
  }
}

=== FILE: store.dfy ===
/** The relational store the handlers read and write, as plain values: one
    sequence of rows per table, in the order the store returns them, and one
    counter from which every new row takes its id. Lookups return the first
    matching row. */
module Store {
  import opened Wrappers
  import opened Scoring
  import Aggregation

  datatype TestStatus = Draft | Published

  datatype TestRow = TestRow(
    id: int, authorId: int, status: TestStatus, code: Option<string>,
    expiresAt: Option<int>, showCorrectAnswers: bool, showQuestionScore: bool)

  datatype QuestionRow = QuestionRow(
    id: int, testId: int, text: string, description: Option<string>, score: real, qtype: QuestionType)

  datatype OptionRow = OptionRow(id: int, questionId: int, text: string, isCorrect: bool)

  datatype SessionStatus = InProgress | Finished

  datatype SessionRow = SessionRow(
    id: int, uuid: string, testId: int, userId: Option<int>, guestName: Option<string>,
    status: SessionStatus, endedAt: Option<int>)

  /** An answer row; `selected` lists the connected option ids in the order
      they were connected. `score` and `status` are set when the session is sent in. */
  datatype AnswerRow = AnswerRow(
    id: int, questionId: int, sessionId: int, selected: seq<int>,
    score: Option<real>, status: Option<AnswerStatus>)

  datatype ResultRow = ResultRow(
    id: int, sessionId: int, countCorrect: nat, countWrong: nat, countAlmostCorrect: nat,
    countSkipped: nat, score: real, userId: Option<int>)

  datatype Db = Db(
    tests: seq<TestRow>, questions: seq<QuestionRow>, options: seq<OptionRow>,
    sessions: seq<SessionRow>, answers: seq<AnswerRow>, results: seq<ResultRow>,
    nextId: int)

  /** The replies a handler can end with instead of success. */
  datatype Error = BadRequest | Unauthorized | Forbidden | NotFound | InternalError(message: string)

  const ServerErrorMessage := "Internal server error"

  /** The position of the first row satisfying `p`. */
  function IndexWhere<T>(rows: seq<T>, p: T -> bool): (r: Option<nat>)
    ensures r.Some? ==> r.value < |rows| && p(rows[r.value])
    ensures r.Some? ==> forall k :: 0 <= k < r.value ==> !p(rows[k])
    ensures r.None? <==> forall k :: 0 <= k < |rows| ==> !p(rows[k])
    decreases |rows|
  {
    if |rows| == 0 then None
    else if p(rows[0]) then Some(0)
    else match IndexWhere(rows[1..], p)
      case None => None
      case Some(k) => Some(k + 1)
  }

  /** Any position that satisfies `p` with none before it is the one found. */
  lemma IndexWhereFirst<T>(rows: seq<T>, p: T -> bool, k: nat)
    requires k < |rows| && p(rows[k])
    requires forall j :: 0 <= j < k ==> !p(rows[j])
    ensures IndexWhere(rows, p) == Some(k)
  {
    var r := IndexWhere(rows, p);
    assert r.Some?;
    assert !(r.value < k);
    assert !(k < r.value);
  }

  function TestById(db: Db, id: int): Option<nat> {
    IndexWhere(db.tests, (t: TestRow) => t.id == id)
  }

  function TestByCode(db: Db, code: string): Option<nat> {
    IndexWhere(db.tests, (t: TestRow) => t.code == Some(code))
  }

  function QuestionById(db: Db, id: int): Option<nat> {
    IndexWhere(db.questions, (q: QuestionRow) => q.id == id)
  }

  function OptionById(db: Db, id: int): Option<nat> {
    IndexWhere(db.options, (o: OptionRow) => o.id == id)
  }

  function SessionById(db: Db, id: int): Option<nat> {
    IndexWhere(db.sessions, (s: SessionRow) => s.id == id)
  }

  function SessionByUuid(db: Db, uuid: string): Option<nat> {
    IndexWhere(db.sessions, (s: SessionRow) => s.uuid == uuid)
  }

  function AnswerById(db: Db, id: int): Option<nat> {
    IndexWhere(db.answers, (a: AnswerRow) => a.id == id)
  }

  /** Some test carries the code. */
  predicate CodeInUse(db: Db, code: string) {
    exists k :: 0 <= k < |db.tests| && db.tests[k].code == Some(code)
  }

  /** Ids are generated from 1 upwards and every id in the store is below the
      counter, so a new row's id is fresh. */
  predicate IdsBelowNext(db: Db) {
    && 0 < db.nextId
    && (forall k :: 0 <= k < |db.tests| ==> 0 < db.tests[k].id < db.nextId)
    && (forall k :: 0 <= k < |db.questions| ==> 0 < db.questions[k].id < db.nextId)
    && (forall k :: 0 <= k < |db.options| ==> 0 < db.options[k].id < db.nextId)
    && (forall k :: 0 <= k < |db.sessions| ==> 0 < db.sessions[k].id < db.nextId)
    && (forall k :: 0 <= k < |db.answers| ==> 0 < db.answers[k].id < db.nextId)
    && (forall k :: 0 <= k < |db.results| ==> 0 < db.results[k].id < db.nextId)
  }

  // ---------------------------------------------------------------------
  // Keys
  // ---------------------------------------------------------------------

  /** No two rows of a table share an id. */
  predicate UniqueIds(db: Db) {
    && (forall i, j :: 0 <= i < j < |db.tests| ==> db.tests[i].id != db.tests[j].id)
    && (forall i, j :: 0 <= i < j < |db.questions| ==> db.questions[i].id != db.questions[j].id)
    && (forall i, j :: 0 <= i < j < |db.options| ==> db.options[i].id != db.options[j].id)
    && (forall i, j :: 0 <= i < j < |db.sessions| ==> db.sessions[i].id != db.sessions[j].id)
    && (forall i, j :: 0 <= i < j < |db.answers| ==> db.answers[i].id != db.answers[j].id)
    && (forall i, j :: 0 <= i < j < |db.results| ==> db.results[i].id != db.results[j].id)
  }

  /** The invariant of a store whose ids all came from the counter. */
  predicate WellKeyed(db: Db) {
    IdsBelowNext(db) && UniqueIds(db)
  }

  // ---------------------------------------------------------------------
  // Reading a test and a session the way the scoring loop sees them
  // ---------------------------------------------------------------------

  function ToQuizOption(o: OptionRow): QuizOption {
    QuizOption(o.id, o.text, o.isCorrect)
  }

  /** Some row is a correct option of question `qid`. */
  predicate HasCorrectOption(rows: seq<OptionRow>, qid: int) {
    exists j :: 0 <= j < |rows| && rows[j].questionId == qid && rows[j].isCorrect
  }

  /** The options of question `qid`, in table order: exactly the option rows
      of that question. */
  function OptionsOf(rows: seq<OptionRow>, qid: int): (r: seq<QuizOption>)
    ensures forall o :: o in rows && o.questionId == qid ==> ToQuizOption(o) in r
    ensures forall o :: o in r ==>
      exists j :: 0 <= j < |rows| && rows[j].questionId == qid && o == ToQuizOption(rows[j])
    ensures HasCorrectOption(rows, qid) ==> |CorrectOptions(r)| > 0
    decreases |rows|
  {
    if |rows| == 0 then []
    else
      var init := rows[..|rows| - 1];
      var last := rows[|rows| - 1];
      var prev := OptionsOf(init, qid);
      assert forall j :: 0 <= j < |init| ==> init[j] == rows[j];
      assert forall o :: o in rows && o != last ==> o in init;
      assert HasCorrectOption(rows, qid) ==>
        (last.questionId == qid && last.isCorrect) || HasCorrectOption(init, qid);
      if last.questionId == qid then
        assert ToQuizOption(last) in CorrectOptions(prev + [ToQuizOption(last)]) <== last.isCorrect;
        prev + [ToQuizOption(last)]
      else prev
  }

  /** The positions of the option rows of question `qid`. */
  function RowsOfQuestion(rows: seq<OptionRow>, qid: int): set<nat> {
    set k: nat | k < |rows| && rows[k].questionId == qid
  }

  /** A question has as many options as option rows carrying its id. */
  lemma {:induction false} OptionsOfCount(rows: seq<OptionRow>, qid: int)
    ensures |OptionsOf(rows, qid)| == |RowsOfQuestion(rows, qid)|
    decreases |rows|
  {
    if |rows| > 0 {
      var init := rows[..|rows| - 1];
      OptionsOfCount(init, qid);
      RowsOfQuestionSnoc(rows, qid);
    }
  }

  lemma RowsOfQuestionSnoc(rows: seq<OptionRow>, qid: int)
    requires |rows| > 0
    ensures RowsOfQuestion(rows, qid) == RowsOfQuestion(rows[..|rows| - 1], qid)
      + (if rows[|rows| - 1].questionId == qid then {|rows| - 1} else {})
  {
  }

  /** A question has a correct option exactly when one of its option rows is
      flagged correct. */
  lemma CorrectOptionIffRow(rows: seq<OptionRow>, qid: int)
    ensures |CorrectOptions(OptionsOf(rows, qid))| > 0 <==> HasCorrectOption(rows, qid)
  {
    var c := CorrectOptions(OptionsOf(rows, qid));
    if |c| > 0 {
      assert c[0] in c;
      var j :| 0 <= j < |rows| && rows[j].questionId == qid && c[0] == ToQuizOption(rows[j]);
    }
  }

  function ToQuestion(options: seq<OptionRow>, q: QuestionRow): Question {
    Question(q.id, q.qtype, q.score, OptionsOf(options, q.id))
  }

  /** Every MULTIPLE question row of test `testId` has a correct option row. */
  predicate TestHasCorrect(options: seq<OptionRow>, rows: seq<QuestionRow>, testId: int) {
    forall k :: 0 <= k < |rows| && rows[k].testId == testId && rows[k].qtype == Multiple ==>
      HasCorrectOption(options, rows[k].id)
  }

  /** The positions of the rows of test `testId`. */
  function RowsOfTest(rows: seq<QuestionRow>, testId: int): set<nat> {
    set k: nat | k < |rows| && rows[k].testId == testId
  }

  /** The questions of test `testId` with their options, in table order:
      the question rows of the test and nothing else. When every MULTIPLE
      question of the test has a correct option, all of them can be scored. */
  function QuestionsOf(options: seq<OptionRow>, rows: seq<QuestionRow>, testId: int): (r: seq<Question>)
    ensures forall q :: q in r <==>
      exists k :: 0 <= k < |rows| && rows[k].testId == testId && q == ToQuestion(options, rows[k])
    ensures TestHasCorrect(options, rows, testId) ==> Aggregation.AllScorable(r)
    decreases |rows|
  {
    if |rows| == 0 then []
    else
      var init := rows[..|rows| - 1];
      var last := rows[|rows| - 1];
      var prev := QuestionsOf(options, init, testId);
      assert forall k :: 0 <= k < |init| ==> init[k] == rows[k];
      assert TestHasCorrect(options, rows, testId) ==> TestHasCorrect(options, init, testId);
      if last.testId == testId then prev + [ToQuestion(options, last)] else prev
  }

  /** There are as many questions of the test as question rows carrying its id. */
  lemma {:induction false} QuestionsOfCount(options: seq<OptionRow>, rows: seq<QuestionRow>, testId: int)
    ensures |QuestionsOf(options, rows, testId)| == |RowsOfTest(rows, testId)|
    decreases |rows|
  {
    if |rows| > 0 {
      var init := rows[..|rows| - 1];
      QuestionsOfCount(options, init, testId);
      RowsOfTestSnoc(rows, testId);
    }
  }

  lemma RowsOfTestSnoc(rows: seq<QuestionRow>, testId: int)
    requires |rows| > 0
    ensures RowsOfTest(rows, testId) == RowsOfTest(rows[..|rows| - 1], testId)
      + (if rows[|rows| - 1].testId == testId then {|rows| - 1} else {})
  {
  }

  /** The questions of a test can all be scored exactly when every MULTIPLE
      question row of the test has a correct option row. */
  lemma ScorableIffCorrectRows(options: seq<OptionRow>, rows: seq<QuestionRow>, testId: int)
    ensures Aggregation.AllScorable(QuestionsOf(options, rows, testId)) <==> TestHasCorrect(options, rows, testId)
  {
    var r := QuestionsOf(options, rows, testId);
    if Aggregation.AllScorable(r) {
      forall k | 0 <= k < |rows| && rows[k].testId == testId && rows[k].qtype == Multiple
        ensures HasCorrectOption(options, rows[k].id)
      {
        var q := ToQuestion(options, rows[k]);
        assert q in r;
        var i :| 0 <= i < |r| && r[i] == q;
        CorrectOptionIffRow(options, rows[k].id);
      }
    }
  }

  /** The first option row with the id. */
  function FirstWithId(options: seq<OptionRow>, id: int): Option<nat> {
    IndexWhere(options, (o: OptionRow) => o.id == id)
  }

  /** The options connected to an answer that still exist, in connection order:
      each listed id with an option row contributes its first row, and a
      vanished id (deleting an option drops its connections) is skipped. */
  function ResolveSelected(options: seq<OptionRow>, ids: seq<int>): (r: seq<QuizOption>)
    ensures |r| <= |ids|
    ensures forall o :: o in r ==>
      exists i :: 0 <= i < |ids| && FirstWithId(options, ids[i]).Some?
        && o == ToQuizOption(options[FirstWithId(options, ids[i]).value])
    ensures forall i :: 0 <= i < |ids| && FirstWithId(options, ids[i]).Some? ==>
      ToQuizOption(options[FirstWithId(options, ids[i]).value]) in r
    decreases |ids|
  {
    if |ids| == 0 then []
    else
      var rest := ResolveSelected(options, ids[1..]);
      assert forall i :: 1 <= i < |ids| ==> ids[i] == ids[1..][i - 1];
      match FirstWithId(options, ids[0])
      case None => rest
      case Some(k) => [ToQuizOption(options[k])] + rest
  }

  /** Resolving keeps the listed order: the options of a concatenation are
      the options of its parts, one after the other. */
  lemma {:induction false} ResolveSelectedAppend(options: seq<OptionRow>, a: seq<int>, b: seq<int>)
    ensures ResolveSelected(options, a + b) == ResolveSelected(options, a) + ResolveSelected(options, b)
    decreases |a|
  {
    if |a| > 0 {
      assert (a + b)[0] == a[0];
      assert (a + b)[1..] == a[1..] + b;
      ResolveSelectedAppend(options, a[1..], b);
    } else {
      assert a + b == b;
    }
  }

  function ToAnswer(options: seq<OptionRow>, a: AnswerRow): Aggregation.Answer {
    Aggregation.Answer(a.id, a.questionId, ResolveSelected(options, a.selected))
  }

  /** The answers of session `sid`, resolved, in table order: exactly the
      answer rows of that session. */
  function AnswersOf(options: seq<OptionRow>, rows: seq<AnswerRow>, sid: int): (r: seq<Aggregation.Answer>)
    ensures |r| <= |rows|
    ensures forall a :: a in r <==>
      exists k :: 0 <= k < |rows| && rows[k].sessionId == sid && a == ToAnswer(options, rows[k])
    decreases |rows|
  {
    if |rows| == 0 then []
    else
      var init := rows[..|rows| - 1];
      var last := rows[|rows| - 1];
      var prev := AnswersOf(options, init, sid);
      assert forall k :: 0 <= k < |init| ==> init[k] == rows[k];
      if last.sessionId == sid then prev + [ToAnswer(options, last)] else prev
  }

  /** The positions of the answer rows of session `sid`. */
  function RowsOfSession(rows: seq<AnswerRow>, sid: int): set<nat> {
    set k: nat | k < |rows| && rows[k].sessionId == sid
  }

  /** A session has as many answers as answer rows carrying its id. */
  lemma {:induction false} AnswersOfCount(options: seq<OptionRow>, rows: seq<AnswerRow>, sid: int)
    ensures |AnswersOf(options, rows, sid)| == |RowsOfSession(rows, sid)|
    decreases |rows|
  {
    if |rows| > 0 {
      var init := rows[..|rows| - 1];
      AnswersOfCount(options, init, sid);
      RowsOfSessionSnoc(rows, sid);
    }
  }

  lemma RowsOfSessionSnoc(rows: seq<AnswerRow>, sid: int)
    requires |rows| > 0
    ensures RowsOfSession(rows, sid) == RowsOfSession(rows[..|rows| - 1], sid)
      + (if rows[|rows| - 1].sessionId == sid then {|rows| - 1} else {})
  {
  }
}

=== FILE: wrappers.dfy ===
/** Optional values and success/failure results, the failure-compatible
    shapes the rest of the model uses in place of `undefined` and thrown errors. */
module Wrappers {

  /** A value that may be absent (`undefined`/`null` in the source). */
  datatype Option<+T> = None | Some(value: T) {

    /** The value, or `default` when absent: the source's `x ?? default`. */
    function GetOr(default: T): T {
      match this
      case Some(v) => v
      case None => default
    }
  }

  /** The outcome of an operation that can fail with an error of type `E`. */
  datatype Result<+R, +E> = Success(value: R) | Failure(error: E)
}
